=== FILE: README.md ===
# LLM review dispatch — a Dafny model

This project models the code-review core of the merge-request review backend:
`LLMService` in `backend/apps/llm/services.py`. The service loads the active
LLM configuration and exports it into the process environment. `review_code`
then routes a review to one of three adapters:

- the Claude command-line tool;
- a local Ollama service;
- a hosted API (OpenAI, DeepSeek, Gemini) reached through `_call_llm_api`.

The hosted-API path first extracts a diff from the local repository. It tries
five git probes in order, truncates the first non-empty output, and falls back
to a short repository summary when every probe fails. Each path resolves the
prompt the same way: a custom prompt first, then a template built from the
merge-request metadata, then the adapter's default.

The modules follow the service's structure:

- `Outcomes`: `Option`, exceptions, a call that returns or raises, and Python
  truthiness of an optional string.
- `PyText`: the Python string operations the service relies on, plus one
  it does not call:
  - `str.lower()` on ASCII;
  - `str.strip()` with the `str.isspace` set;
  - `'\n'.join`;
  - `str.split('\n')`, which the service never calls. It is here only to
    read an assembled prompt back line by line in the lemmas.
- `Environment`: `_load_config` and `_set_environment_variables`. The
  configuration store is a parameter and `os.environ` is a map. The
  assignments run in order, and the first value `os.environ` refuses (one
  holding a NUL character) stops the rest, as the method's catch-all does.
- `Prompts`: `_build_claude_cli_prompt`, `_build_generic_llm_prompt` and
  `_build_prompt`.
- `Extraction`: `_get_code_context_from_repo`. Git is a pure function from a
  command line to its result, and the file system is a path predicate.
- `Dispatch`: `review_code`, the three adapters and `_call_llm_api`. The local
  services, the API clients and the result parser are parameters, and any call
  of one may return or raise. The clock reading is a given number of
  milliseconds, which cannot raise. A review yields its outcome and the trace
  of collaborator calls it made.

Three behaviours of the code are easy to miss:

- The `mock` provider is not short-circuited. It takes the hosted-API path
  and reaches no API. Once a diff is extracted, the parser is handed the
  "not supported" message; without one, the no-change message is returned.
- The repository summary fallback is not truncated, so a context is not
  always within the size cap.
- The repository-path check compares the provider name exactly. Routing, in
  contrast, lower-cases it, so `Claude` without a path reaches the CLI adapter.

## Model

| member | source | states |
|---|---|---|
| PyText.Lower | backend/apps/llm/services.py:131-136 | the provider comparison lower-cases: same length, every ASCII capital mapped to its small letter, every other character kept |
| PyText.Strip | backend/apps/llm/services.py:613 | stripped git output is the slice of the input left after its leading and trailing white space; no white space remains at either end, and an input with none there is unchanged |
| PyText.JoinSplit | backend/apps/llm/services.py:448 | joining with newlines loses nothing: splitting and re-joining gives the text back |
| PyText.SplitJoin | backend/apps/llm/services.py:896 | splitting the joined prompt lines recovers each line's pieces in order, and the lines themselves when none holds a newline |
| PyText.JoinAppend | backend/apps/llm/services.py:293-448 | extending a line list joins to the two joins separated by one newline |
| Environment.PlannedAssignments | backend/apps/llm/services.py:61-97 | the statements attempted name, once each, exactly the variables of the lower-cased provider's family with a truthy value, plus LLM_MODEL with a truthy model, last; the API key, when exported, comes first, before the base URL; each carries its configuration value; a mock configuration attempts none |
| Environment.Accepted | backend/apps/llm/services.py:60-101 | the assignments that run are those before the first value `os.environ` refuses |
| Environment.Apply | backend/apps/llm/services.py:60-101 | the assignments before the first refused one take effect, and every other variable keeps its value |
| Environment.SetEnvironmentVariables | backend/apps/llm/services.py:54-101 | a mock configuration changes nothing; a variable that is not exported keeps its value or its absence; with no refused value every exported variable carries its value; the first refused value stops the rest |
| Environment.RefusedKeyStopsExport | backend/apps/llm/services.py:61-101 | for every provider family, an exported API key that `os.environ` refuses raises at the first assignment, so the environment is left exactly as it was |
| Environment.NulInKeyStopsExport | backend/apps/llm/services.py:60-101 | an `openai` key holding a NUL raises at the first assignment, so neither the base URL nor the model is exported |
| Environment.PromptTemplate | backend/apps/llm/services.py:20-21 | the template is `GPT_MESSAGE` when the setting exists and the built-in review request otherwise |
| Environment.SetEnvironmentVariablesIdempotent | backend/apps/llm/services.py:54-101 | exporting the same configuration twice gives the environment one export gives |
| Environment.LoadConfig | backend/apps/llm/services.py:17-52 | no active record gives the configuration error with its message; otherwise the fields are copied, the mock flag holds iff the provider is exactly `mock`, the template is the one the settings give, and the environment is the exported one |
| Prompts.TemplateLines | backend/apps/llm/services.py:280-294 | the shared template opens with the seven header lines and ends with the tool line and the closing notes, one line longer when there is a description |
| Prompts.BuildCliPrompt | backend/apps/llm/services.py:270-448 | the command-line prompt reads back, line by line, as the template's lines; its content is stated by the template lemmas below |
| Prompts.BuildGenericPrompt | backend/apps/llm/services.py:711-896 | the hosted-API prompt reads back, line by line, as the template's lines followed by the diff section; its layout is stated by the template lemmas below |
| Prompts.TemplateMetadata | backend/apps/llm/services.py:280-291 | the template shows title, author and both branches, each defaulting to 未知, then the description line or the body, with one extra line exactly when there is a description |
| Prompts.DescriptionLineIffTruthy | backend/apps/llm/services.py:290-291 | a line starts with the description label iff the metadata carries a truthy description |
| Prompts.GenericPromptExtendsTemplate | backend/apps/llm/services.py:711-896 | the hosted-API prompt is the shared template naming the provider as the tool, followed by the heading and the fenced diff |
| Prompts.GenericPromptForClaudeExtendsCliPrompt | backend/apps/llm/services.py:270-448 | for provider `Claude` the hosted-API prompt is exactly the command-line prompt followed by the fenced diff |
| Prompts.GenericPromptEndsWithDiff | backend/apps/llm/services.py:889-896 | read back line by line, the hosted-API prompt ends with the opening fence, the diff's own lines and the closing fence |
| Prompts.BuildPrompt | backend/apps/llm/services.py:1010-1014 | the fallback prompt starts with the configured template, then the heading separator, and ends with the diff |
| Extraction.Truncate | backend/apps/llm/services.py:664-665 | output within 20000 characters is kept whole; longer output keeps its first 20000 characters followed by the marker |
| Extraction.TruncateIdempotent | backend/apps/llm/services.py:664-665 | truncating a truncated output changes nothing |
| Extraction.HeadBranch | backend/apps/llm/services.py:593-596 | no branch iff `HEAD branch: ` followed by a word character occurs nowhere; otherwise the maximal word run after the leftmost occurrence, non-empty |
| Extraction.HeadBranchOfRemoteReport | backend/apps/llm/services.py:593-595 | on the report line `  HEAD branch: main` the default branch is `main` |
| Extraction.InferRange | backend/apps/llm/services.py:569-603 | a truthy range is kept; a falsy range becomes `default..current` exactly when the current-branch call completes, the remote report completes and names a HEAD branch, and is kept otherwise |
| Extraction.CurrentBranch | backend/apps/llm/services.py:605-615 | the current branch is the stripped `rev-parse` output, empty when the call raises, and never has white space at either end |
| Extraction.InferRangeFromRemoteReport | backend/apps/llm/services.py:569-601 | with current branch `feature` and default `main`, an empty range becomes `main..feature` |
| Extraction.Probes | backend/apps/llm/services.py:617-642 | five probes; the first diffs the range when it is truthy, the fourth diffs `origin/<current>` when a current branch is known |
| Extraction.ScanProbes | backend/apps/llm/services.py:645-672 | the scan stops at the first probe whose status is 0 and whose output is non-empty, after every earlier one failed; it is exhausted iff every probe fails |
| Extraction.RepositorySummary | backend/apps/llm/services.py:674-705 | the summary exists iff both git calls complete; piece by piece it is the title and `- 当前分支: `, the stripped branch, the line break and `- 最新提交: `, the stripped last commit message, and the closing note, with nothing else in between |
| Extraction.Extract | backend/apps/llm/services.py:548-709 | a missing repository runs nothing and gives none; otherwise the probes run are a prefix of the planned ones, all but the last failed, the last one's output is truncated, or all five failed and the summary is returned |
| Extraction.ProbeOutputIsBounded | backend/apps/llm/services.py:658-666 | a context taken from a probe is at most the cap plus the marker long |
| Dispatch.AdapterFor | backend/apps/llm/services.py:131-138 | the CLI adapter iff the lower-cased provider is `claude`, Ollama iff `ollama`, the hosted-API path otherwise |
| Dispatch.ApiFor | backend/apps/llm/services.py:912-917 | an API exists iff the lower-cased provider is openai, deepseek or gemini, and it is the one of that name |
| Dispatch.LocalPrompt | backend/apps/llm/services.py:176-184 | a truthy custom prompt is forwarded verbatim, else truthy metadata gives the CLI template, else no prompt at all |
| Dispatch.GenericPrompt | backend/apps/llm/services.py:510-520 | a truthy custom prompt is sent verbatim, else truthy metadata gives the hosted-API template, else the configured template with the diff |
| Dispatch.LocalReview | backend/apps/llm/services.py:148-207 | a failed setup calls nothing, and otherwise the availability check is the first call; a failed check returns its reason and runs nothing; a passed check always leads to exactly one service run, second, with the resolved prompt; an exception from the check, the run or the parser escapes unchanged to the caller; a run reporting failure returns `代码审查失败: ` and its error; the parser is called only after a successful run with the clock in scope, exactly once, third, on the run's output, and nothing follows it; a successful run the parser accepts returns the parsed result; without the clock in scope a returning run ends in the undefined-name error |
| Dispatch.CallLlmApi | backend/apps/llm/services.py:898-927 | an unsupported provider gets the "not supported" message; a supported one gets the client's text, or the failure message when the client raises |
| Dispatch.ReviewContext | backend/apps/llm/services.py:510-541 | the API is called only for a supported provider, and the parser receives whatever text came back, error text included; nothing but the API and the parser is called; a raising parser gives `代码审查失败: ` and its message |
| Dispatch.GenericReview | backend/apps/llm/services.py:486-546 | never raises; the extraction runs first; without a diff the fixed message is returned and nothing else runs; with one, the outcome and the remaining calls are those of reviewing that diff, and no call after the extraction is a local service's |
| Dispatch.Normalize | backend/apps/llm/services.py:140-146 | an escaping `ImportError` becomes the missing-module message with its text, any other exception `代码审查失败: ` and its text; a returned outcome passes through |
| Dispatch.ReviewCodeWith | backend/apps/llm/services.py:103-146 | a provider named exactly claude or ollama without a repository path gets the missing-path message and no call is made; every call belongs to the adapter the lower-cased provider selects |
| Dispatch.GenericRoute | backend/apps/llm/services.py:136-138 | on the hosted-API route the review is the generic adapter's outcome and calls |
| Dispatch.LocalRoute | backend/apps/llm/services.py:131-135 | on a local route past the path check the review is the local adapter's normalised outcome and calls |
| Dispatch.NeedsRepository | backend/apps/llm/services.py:125 | the path check compares the provider name exactly, and both names it accepts are routed locally |
| Dispatch.MixedCaseProviderSkipsRepositoryCheck | backend/apps/llm/services.py:125-133 | a provider that lower-cases to `claude` but is not spelled so skips the path check and reaches the CLI availability check |
| Dispatch.CapitalisedClaudeReachesCli | backend/apps/llm/services.py:125-133 | `Claude` with no repository path is routed to the CLI and its availability is checked |
| Dispatch.LocalExceptionsAreNormalised | backend/apps/llm/services.py:140-146 | an exception from a local adapter becomes the missing-module message when it is an ImportError, the generic failure message otherwise |
| Dispatch.ValidationFailureStopsReview | backend/apps/llm/services.py:166-173 | a failed availability check returns its reason, and only the check was made |
| Dispatch.CustomPromptIsSentVerbatim | backend/apps/llm/services.py:177-179 | with a truthy custom prompt, every service run and every API call carries exactly that prompt |
| Dispatch.NoContextStopsGenericReview | backend/apps/llm/services.py:505-508 | without a diff the review returns the fixed message and only the extraction ran |
| Dispatch.UnsupportedProviderFeedsErrorTextToParser | backend/apps/llm/services.py:918-922 | a provider no API serves reaches no API, and the parser receives the "not supported" message |
| Dispatch.MockProviderReachesNoApi | backend/apps/llm/services.py:42 | the mock provider takes the hosted-API path, needs no repository path and has no API |
| Dispatch.MissingModuleOnlyFromLocalAdapters | backend/apps/llm/services.py:140-142 | the missing-module message comes only from the local adapters |
| Dispatch.GenericOutcomeIsNotMissingModule | backend/apps/llm/services.py:543-546 | the hosted-API path never produces the missing-module message |
| Dispatch.ReviewCodeAsWritten | backend/apps/llm/services.py:193 | as written, a locally routed review always ends in an error message |
| Dispatch.AsWrittenLocalReviewEndsInNameError | backend/apps/llm/services.py:254 | as written, a local review whose service returns ends in the undefined-name message, whatever the service returned |
| Dispatch.NameErrorWitness | backend/apps/llm/services.py:186-207 | on one concrete successful CLI run the code as written returns the undefined-name message, while the corrected review returns the parsed result |
| Dispatch.ReviewCode | backend/apps/llm/services.py:186-207 | corrected: a passed check, a successful service run and an accepting parser return the parsed result |

## Left out

- Process execution is reduced to its result: `subprocess.run`, its `cwd`, the timeouts, `stderr` and `capture_output` are not modelled. A timeout is one way a call raises.
- Git runs as a pure function, so the same command always gives the same answer within one extraction. A repository that changes between probes is not modelled.
- The configuration store (`LLMConfig.objects`) becomes an optional record. The `ImportError` raised when the model cannot be imported is not modelled.
- `config_source`, the request id and all logging are left out, because they do not affect any result.
- The SDK clients `_call_openai_api`, `_call_deepseek_api` and `_call_gemini_api` are parameters that return text or raise. Their HTTP requests and response parsing are outside this core.
- The legacy `_review_with_openai` is not reachable from `review_code` and is left out.
- The result parser and the local services are parameters, because their implementations are outside this core.
- `ReviewResultParser` gets the duration as `elapsedMs`, a parameter. The wall-clock reading and the float-to-integer conversion are not modelled.
- The parsed result's `score` and `issues` are read only for logging. That lookup raising on a malformed parse is not modelled.
- `PyText.Lower`: maps ASCII letters only, where Python's `str.lower()` lower-cases all of Unicode.
- `Extraction.HeadBranch`: `\w` is ASCII letters, digits and the underscore, where Python's `re` also accepts other Unicode word characters.
- `Prompts.TemplateLines`: the instruction body between the metadata and the tool line is reduced to its section headings. The header, the description line, the tool line and the closing notes are verbatim.
- `mr_info` values are strings. A key present with the value `None` is not modelled, and `None` and `{}` for the whole `mr_info` are both the empty map.
- The deprecated `code_context` argument of `review_code` is never read and is left out.
- The outer `except` of the extraction covers a `repo_path` that is not a string. This is modelled only as the absent path, which gives no context.
- `Environment.Assignable`: the only refusal modelled is the NUL character, which `os.environ` rejects on every platform. Other platform-specific limits are not modelled. Lone surrogates cannot occur, because a Dafny `char` is a Unicode scalar value.
- `Environment.PromptTemplate`: a `GPT_MESSAGE` setting whose value is not a string is not modelled.
- `ImproperlyConfigured` is modelled as the `ConfigError` outcome rather than as an exception.

## Findings

| source | as written | input that shows it | evidently intended | confidence | as-written member | corrected member |
|---|---|---|---|---|---|---|
| backend/apps/llm/services.py:193 | `_review_with_claude_cli` (and `_review_with_ollama` at line 254) read `time.time()`, but `time` is imported only inside `review_code`, so this raises `NameError`. `review_code` turns it into `代码审查失败: name 'time' is not defined` | provider `claude`, repository `/repo`, CLI available, CLI review succeeds, parser accepts its output | the elapsed time is measured and the parsed result is returned | high, not executed | Dispatch.ReviewCodeAsWritten | Dispatch.ReviewCode |

=== FILE: dispatch.dfy ===
/** The dispatch controller (`LLMService.review_code`) and its three
    adapters: the Claude command-line tool, the local Ollama service, and the
    hosted APIs reached through `_call_llm_api`. The services, the API
    clients and the result parser are collaborators given as parameters, and
    every call of one may return or raise; the clock reading is a given
    number of milliseconds, which cannot raise. A review yields an
    outcome and the trace of collaborator calls it made, so that "no adapter
    was invoked" and "execute never ran" can be stated. */
module Dispatch {
  import opened Outcomes
  import PyText
  import Environment
  import Prompts
  import Extraction

  /** The three execution strategies. */
  datatype Adapter = ClaudeCli | Ollama | Generic

  /** Adapter selection compares the lower-cased provider name. */
  function AdapterFor(provider: string): (a: Adapter)
    ensures a == ClaudeCli <==> PyText.Lower(provider) == "claude"
    ensures a == Ollama <==> PyText.Lower(provider) == "ollama"
  {
    var p := PyText.Lower(provider);
    if p == "claude" then ClaudeCli else if p == "ollama" then Ollama else Generic
  }

  /** The repository-path precondition compares the provider name exactly,
      without lower-casing. */
  predicate NeedsRepository(provider: string)
    ensures NeedsRepository(provider) ==> AdapterFor(provider) != Generic
  {
    if provider == "claude" || provider == "ollama" then
      assert PyText.Lower(provider)[0] == provider[0];
      assert PyText.Lower(provider) == provider;
      true
    else false
  }

  /** The hosted APIs `_call_llm_api` can reach. */
  datatype Api = OpenAi | DeepSeek | Gemini

  function ApiName(api: Api): string
  {
    match api
    case OpenAi => "openai"
    case DeepSeek => "deepseek"
    case Gemini => "gemini"
  }

  /** The API for a provider, matched after lower-casing; `None` for every
      other provider, the mock one included. */
  function ApiFor(provider: string): (r: Option<Api>)
    ensures r.Some? <==> PyText.Lower(provider) in ["openai", "deepseek", "gemini"]
    ensures r.Some? ==> ApiName(r.value) == PyText.Lower(provider)
  {
    var p := PyText.Lower(provider);
    if p == "openai" then Some(OpenAi)
    else if p == "deepseek" then Some(DeepSeek)
    else if p == "gemini" then Some(Gemini)
    else None
  }

  /** What the external result parser returns. */
  datatype ParsedReview = ParsedReview(score: int, issues: seq<string>)

  /** What `review_code` returns: the parsed result or an error string. */
  datatype ReviewOutcome = Structured(review: ParsedReview) | ErrorMessage(text: string)

  /** What is handed to the parser: the raw review text and its duration. */
  datatype RawResult = RawResult(result: string, durationMs: int)

  /** `(is_valid, validation_error)` from a local service. */
  datatype Validation = Validation(ok: bool, reason: string)

  /** The arguments of a local service's `review_code`. */
  datatype ExecRequest = ExecRequest(repoPath: Option<string>, prompt: Option<string>, commitRange: Option<string>)

  /** `(success, result_data, error)` from a local service. */
  datatype ExecReply = ExecReply(success: bool, data: RawResult, error: string)

  /** A local review service: loading its module and constructing it, its
      availability check, and the review it runs. */
  datatype LocalService = LocalService(
    setup: Call<()>,
    validate: Call<Validation>,
    execute: ExecRequest -> Call<ExecReply>)

  /** Everything outside the controller that a review call touches.
      `elapsedMs` is the clock reading turned into milliseconds. */
  datatype Collaborators = Collaborators(
    cli: LocalService,
    ollama: LocalService,
    workspace: Extraction.Workspace,
    apis: Api -> string -> Call<string>,
    parse: RawResult -> Call<ParsedReview>,
    elapsedMs: int)

  /** The arguments of `review_code`; the deprecated `code_context` is never
      read and is left out. */
  datatype ReviewRequest = ReviewRequest(
    mrInfo: Prompts.MrInfo,
    repoPath: Option<string>,
    commitRange: Option<string>,
    customPrompt: Option<string>)

  /** A call the controller made on a collaborator. */
  datatype Event =
    | Validated(adapter: Adapter)
    | Executed(adapter: Adapter, request: ExecRequest)
    | Extracted(attempted: seq<Extraction.Command>)
    | ApiCalled(api: Api, prompt: string)
    | ParserCalled(input: RawResult)

  /** How an adapter call ends: it returns an outcome or an exception escapes. */
  datatype Flow = Returned(outcome: ReviewOutcome) | Escaped(exc: Exception)

  datatype Run = Run(flow: Flow, trace: seq<Event>)

  /** What `review_code` gives its caller, with the calls it made. */
  datatype Review = Review(outcome: ReviewOutcome, trace: seq<Event>)

  /** The event is a call the given adapter makes: validation and execution
      name it, extraction and API calls belong to the hosted-API path. */
  predicate MadeBy(e: Event, a: Adapter)
  {
    match e
    case Validated(b) => b == a
    case Executed(b, _) => b == a
    case Extracted(_) => a == Generic
    case ApiCalled(_, _) => a == Generic
    case ParserCalled(_) => true
  }

  /** Every call in the trace is one the adapter makes. */
  predicate AllMadeBy(trace: seq<Event>, a: Adapter)
  {
    forall k :: 0 <= k < |trace| ==> MadeBy(trace[k], a)
  }

  const FailurePrefix := "代码审查失败: "
  const ReportPrefix := "代码审查失败："
  const NoChangeContent := "代码审查失败：未获取到代码变更内容"

  function MissingRepositoryMessage(provider: string): string
  {
    "代码审查失败：未提供仓库路径，" + provider + " 需要本地仓库"
  }

  function MissingModuleMessage(detail: string): string
  {
    "代码审查失败：缺少必要的模块\n错误详情: " + detail
  }

  function UnsupportedApiMessage(provider: string): string
  {
    "代码审查失败：提供商 " + provider + " 暂不支持 API 调用"
  }

  function ApiFailureMessage(detail: string): string
  {
    "代码审查失败：LLM API 调用失败 - " + detail
  }

  /** Reading `time.time()` in a method that never imported `time`. */
  const TimeNotDefined := Exception(NameError, "name 'time' is not defined")

  /** Where the prompt comes from; the same precedence in every adapter. */
  datatype PromptSource = CustomPrompt | MrTemplate | AdapterDefault

  /** A truthy custom prompt wins, then truthy merge-request metadata. */
  function PromptSourceFor(req: ReviewRequest): PromptSource
  {
    if Truthy(req.customPrompt) then CustomPrompt
    else if req.mrInfo != map[] then MrTemplate
    else AdapterDefault
  }

  /** The prompt a local adapter forwards: the custom prompt verbatim, the
      command-line template, or none (the tool's own default). */
  function LocalPrompt(req: ReviewRequest): (p: Option<string>)
    ensures PromptSourceFor(req) == CustomPrompt ==> p == req.customPrompt && p.Some?
    ensures PromptSourceFor(req) == MrTemplate ==> p == Some(Prompts.BuildCliPrompt(req.mrInfo))
    ensures PromptSourceFor(req) == AdapterDefault <==> p.None?
  {
    if Truthy(req.customPrompt) then req.customPrompt
    else if req.mrInfo != map[] then Some(Prompts.BuildCliPrompt(req.mrInfo))
    else None
  }

  /** The prompt the hosted-API path sends: the custom prompt verbatim, the
      hosted-API template with the diff, or the configured template with the
      diff. */
  function GenericPrompt(cfg: Environment.Config, req: ReviewRequest, context: string): (p: string)
    ensures PromptSourceFor(req) == CustomPrompt ==> p == req.customPrompt.value
    ensures PromptSourceFor(req) == MrTemplate ==> p == Prompts.BuildGenericPrompt(cfg.provider, req.mrInfo, context)
    ensures PromptSourceFor(req) == AdapterDefault ==> p == Prompts.BuildPrompt(cfg.promptTemplate, context)
  {
    if Truthy(req.customPrompt) then req.customPrompt.value
    else if req.mrInfo != map[] then Prompts.BuildGenericPrompt(cfg.provider, req.mrInfo, context)
    else Prompts.BuildPrompt(cfg.promptTemplate, context)
  }

  /** `_review_with_claude_cli` / `_review_with_ollama`. `clockInScope` says
      whether `time` is bound where the elapsed time is read after the
      service ran; in the code as written it is not. */
  function LocalReview(a: Adapter, svc: LocalService, req: ReviewRequest,
                       parse: RawResult -> Call<ParsedReview>, clockInScope: bool): (r: Run)
    // nothing is called when loading the service fails, and otherwise the
    // availability check is the first call
    ensures svc.setup.Raises? ==> r == Run(Escaped(svc.setup.exc), [])
    ensures svc.setup.Returns? ==> |r.trace| >= 1 && r.trace[0] == Validated(a)
    // a failed check ends the review before any prompt is built or run
    ensures svc.setup.Returns? && svc.validate.Returns? && !svc.validate.value.ok ==>
              r == Run(Returned(ErrorMessage(ReportPrefix + svc.validate.value.reason)), [Validated(a)])
    // the service runs at most once, after a passed check, with the resolved prompt
    ensures forall k :: 0 <= k < |r.trace| && r.trace[k].Executed? ==>
              && k == 1 && r.trace[0] == Validated(a)
              && svc.validate.Returns? && svc.validate.value.ok
              && r.trace[k] == Executed(a, ExecRequest(req.repoPath, LocalPrompt(req), req.commitRange))
    // a passed check always leads to the service run, with the resolved prompt
    ensures svc.setup.Returns? && svc.validate.Returns? && svc.validate.value.ok ==>
              |r.trace| >= 2 && r.trace[1] == Executed(a, ExecRequest(req.repoPath, LocalPrompt(req), req.commitRange))
    // an exception from the check, the run or the parser escapes unchanged
    ensures svc.setup.Returns? && svc.validate.Raises? ==> r.flow == Escaped(svc.validate.exc)
    ensures var q := ExecRequest(req.repoPath, LocalPrompt(req), req.commitRange);
            svc.setup.Returns? && svc.validate.Returns? && svc.validate.value.ok && svc.execute(q).Raises? ==>
              r.flow == Escaped(svc.execute(q).exc)
    ensures var q := ExecRequest(req.repoPath, LocalPrompt(req), req.commitRange);
            clockInScope && svc.setup.Returns? && svc.validate.Returns? && svc.validate.value.ok
            && svc.execute(q).Returns? && svc.execute(q).value.success && parse(svc.execute(q).value.data).Raises? ==>
              r.flow == Escaped(parse(svc.execute(q).value.data).exc)
    // a successful run whose output the parser accepts gives the parsed result
    ensures var q := ExecRequest(req.repoPath, LocalPrompt(req), req.commitRange);
            clockInScope && svc.setup.Returns? && svc.validate.Returns? && svc.validate.value.ok
            && svc.execute(q).Returns? && svc.execute(q).value.success && parse(svc.execute(q).value.data).Returns? ==>
              r.flow == Returned(Structured(parse(svc.execute(q).value.data).value))
    // a run that reports failure returns its error with the failure prefix
    ensures var q := ExecRequest(req.repoPath, LocalPrompt(req), req.commitRange);
            clockInScope && svc.setup.Returns? && svc.validate.Returns? && svc.validate.value.ok
            && svc.execute(q).Returns? && !svc.execute(q).value.success ==>
              r.flow == Returned(ErrorMessage(FailurePrefix + svc.execute(q).value.error))
    // without the clock in scope the review never reaches the parser: reading
    // the clock after a returning run raises the undefined-name error
    ensures !clockInScope ==> r.flow.Escaped? || r.flow.outcome.ErrorMessage?
    ensures var q := ExecRequest(req.repoPath, LocalPrompt(req), req.commitRange);
            !clockInScope && svc.setup.Returns? && svc.validate.Returns? && svc.validate.value.ok
            && svc.execute(q).Returns? ==>
              r.flow == Escaped(TimeNotDefined)
    // the parser is the only call after the run, and it is made exactly when
    // the clock is in scope and the run succeeded, on the run's output
    ensures |r.trace| <= 3
    ensures forall k :: 2 <= k < |r.trace| ==> r.trace[k].ParserCalled?
    ensures var q := ExecRequest(req.repoPath, LocalPrompt(req), req.commitRange);
            forall k :: 0 <= k < |r.trace| && r.trace[k].ParserCalled? ==>
              && k == 2 && clockInScope && svc.setup.Returns? && svc.validate.Returns? && svc.validate.value.ok
              && svc.execute(q).Returns? && svc.execute(q).value.success
              && r.trace[k] == ParserCalled(svc.execute(q).value.data)
    ensures var q := ExecRequest(req.repoPath, LocalPrompt(req), req.commitRange);
            clockInScope && svc.setup.Returns? && svc.validate.Returns? && svc.validate.value.ok
            && svc.execute(q).Returns? && svc.execute(q).value.success ==>
              |r.trace| == 3 && r.trace[2] == ParserCalled(svc.execute(q).value.data)
    ensures AllMadeBy(r.trace, a)
  {
    match svc.setup
    case Raises(e) => Run(Escaped(e), [])
    case Returns(_) =>
      match svc.validate
      case Raises(e) => Run(Escaped(e), [Validated(a)])
      case Returns(v) =>
        if !v.ok then Run(Returned(ErrorMessage(ReportPrefix + v.reason)), [Validated(a)])
        else
          var request := ExecRequest(req.repoPath, LocalPrompt(req), req.commitRange);
          var trace := [Validated(a), Executed(a, request)];
          match svc.execute(request)
          case Raises(e) => Run(Escaped(e), trace)
          case Returns(reply) =>
            if !clockInScope then Run(Escaped(TimeNotDefined), trace)
            else if !reply.success then Run(Returned(ErrorMessage(FailurePrefix + reply.error)), trace)
            else
              match parse(reply.data)
              case Raises(e) => Run(Escaped(e), trace + [ParserCalled(reply.data)])
              case Returns(p) => Run(Returned(Structured(p)), trace + [ParserCalled(reply.data)])
  }

  /** `_call_llm_api`: the client's text for a supported provider, its error
      turned into a message when it raises, and a message, not an exception,
      for any other provider. */
  function CallLlmApi(provider: string, prompt: string, apis: Api -> string -> Call<string>): (r: string)
    ensures ApiFor(provider).None? ==> r == UnsupportedApiMessage(provider)
    ensures ApiFor(provider).Some? ==>
              var reply := apis(ApiFor(provider).value)(prompt);
              r == (if reply.Returns? then reply.value else ApiFailureMessage(reply.exc.message))
  {
    match ApiFor(provider)
    case None => UnsupportedApiMessage(provider)
    case Some(api) =>
      match apis(api)(prompt)
      case Returns(text) => text
      case Raises(e) => ApiFailureMessage(e.message)
  }

  /** The hosted-API path once a non-empty diff is in hand: resolve the
      prompt, call the API (only for a supported provider), and hand the
      text that came back, error text included, to the parser. */
  function ReviewContext(cfg: Environment.Config, c: Collaborators, req: ReviewRequest, context: string): (r: Run)
    ensures r.flow.Returned?
    ensures var prompt := GenericPrompt(cfg, req, context);
            var input := RawResult(CallLlmApi(cfg.provider, prompt, c.apis), c.elapsedMs);
            && r.trace == (if ApiFor(cfg.provider).Some? then [ApiCalled(ApiFor(cfg.provider).value, prompt)] else [])
                          + [ParserCalled(input)]
            && r.flow.outcome == (if c.parse(input).Returns? then Structured(c.parse(input).value)
                                  else ErrorMessage(FailurePrefix + c.parse(input).exc.message))
    // only the API and the parser are called
    ensures forall k :: 0 <= k < |r.trace| ==> r.trace[k].ApiCalled? || r.trace[k].ParserCalled?
    ensures AllMadeBy(r.trace, Generic)
  {
    var prompt := GenericPrompt(cfg, req, context);
    var content := CallLlmApi(cfg.provider, prompt, c.apis);
    var called := match ApiFor(cfg.provider)
      case Some(api) => [ApiCalled(api, prompt)]
      case None => [];
    var input := RawResult(content, c.elapsedMs);
    match c.parse(input)
    case Raises(e) => Run(Returned(ErrorMessage(FailurePrefix + e.message)), called + [ParserCalled(input)])
    case Returns(p) => Run(Returned(Structured(p)), called + [ParserCalled(input)])
  }

  /** `_review_with_generic_llm`: extract the diff, then review it. Its own
      catch-all means that no exception ever leaves it, and without a diff
      nothing but the extraction runs. */
  function GenericReview(cfg: Environment.Config, c: Collaborators, req: ReviewRequest): (r: Run)
    ensures r.flow.Returned?
    ensures var ex := Extraction.Extract(req.repoPath, req.commitRange, c.workspace);
            && |r.trace| >= 1 && r.trace[0] == Extracted(ex.attempted)
            && (!Truthy(ex.context) ==> r == Run(Returned(ErrorMessage(NoChangeContent)), [Extracted(ex.attempted)]))
            && (Truthy(ex.context) ==> r.trace[1..] == ReviewContext(cfg, c, req, ex.context.value).trace)
            && (Truthy(ex.context) ==> r.flow == ReviewContext(cfg, c, req, ex.context.value).flow)
    // after the extraction only the API and the parser are called
    ensures forall k :: 1 <= k < |r.trace| ==> r.trace[k].ApiCalled? || r.trace[k].ParserCalled?
    ensures AllMadeBy(r.trace, Generic)
  {
    var ex := Extraction.Extract(req.repoPath, req.commitRange, c.workspace);
    if !Truthy(ex.context) then Run(Returned(ErrorMessage(NoChangeContent)), [Extracted(ex.attempted)])
    else
      var rest := ReviewContext(cfg, c, req, ex.context.value);
      var trace := [Extracted(ex.attempted)] + rest.trace;
      assert trace[1..] == rest.trace;
      Run(rest.flow, trace)
  }

  /** The two `except` clauses of `review_code`. */
  function Normalize(f: Flow): (o: ReviewOutcome)
    ensures f.Returned? ==> o == f.outcome
    ensures f.Escaped? ==>
              o == ErrorMessage(if f.exc.kind == ImportError then MissingModuleMessage(f.exc.message)
                                else FailurePrefix + f.exc.message)
  {
    match f
    case Returned(o) => o
    case Escaped(e) =>
      if e.kind == ImportError then ErrorMessage(MissingModuleMessage(e.message))
      else ErrorMessage(FailurePrefix + e.message)
  }

  /** `review_code`, with the clock either in scope in the local adapters or
      not (see `ReviewCode` and `ReviewCodeAsWritten`). */
  function ReviewCodeWith(cfg: Environment.Config, c: Collaborators, req: ReviewRequest, clockInScope: bool): (r: Review)
    // a provider named exactly `claude` or `ollama` needs a repository path,
    // and without one nothing is called
    ensures !Truthy(req.repoPath) && NeedsRepository(cfg.provider) ==>
              r == Review(ErrorMessage(MissingRepositoryMessage(cfg.provider)), [])
    // every call goes to the adapter the lower-cased provider selects
    ensures AllMadeBy(r.trace, AdapterFor(cfg.provider))
  {
    if !Truthy(req.repoPath) && NeedsRepository(cfg.provider) then
      Review(ErrorMessage(MissingRepositoryMessage(cfg.provider)), [])
    else
      var run := match AdapterFor(cfg.provider)
        case ClaudeCli => LocalReview(ClaudeCli, c.cli, req, c.parse, clockInScope)
        case Ollama => LocalReview(Ollama, c.ollama, req, c.parse, clockInScope)
        case Generic => GenericReview(cfg, c, req);
      Review(Normalize(run.flow), run.trace)
  }

  /** `review_code` as written: the command-line and Ollama adapters read
      `time.time()` without `time` in scope, so they never return a parsed
      result. */
  function ReviewCodeAsWritten(cfg: Environment.Config, c: Collaborators, req: ReviewRequest): (r: Review)
    ensures AdapterFor(cfg.provider) != Generic ==> r.outcome.ErrorMessage?
  {
    ReviewCodeWith(cfg, c, req, false)
  }

  /** `review_code` with `time` in scope in every adapter: a local adapter
      whose check passes and whose review succeeds hands its result to the
      parser and returns what the parser gives. */
  function ReviewCode(cfg: Environment.Config, c: Collaborators, req: ReviewRequest): (r: Review)
    ensures var svc := if AdapterFor(cfg.provider) == ClaudeCli then c.cli else c.ollama;
            var request := ExecRequest(req.repoPath, LocalPrompt(req), req.commitRange);
            && AdapterFor(cfg.provider) != Generic
            && !(!Truthy(req.repoPath) && NeedsRepository(cfg.provider))
            && svc.setup.Returns? && svc.validate.Returns? && svc.validate.value.ok
            && svc.execute(request).Returns? && svc.execute(request).value.success
            && c.parse(svc.execute(request).value.data).Returns?
            ==> r.outcome == Structured(c.parse(svc.execute(request).value.data).value)
  {
    ReviewCodeWith(cfg, c, req, true)
  }

  /** The local service a locally-routed provider uses. */
  function LocalServiceFor(c: Collaborators, a: Adapter): LocalService
  {
    if a == ClaudeCli then c.cli else c.ollama
  }

  /** On the hosted-API route `review_code` returns what the generic adapter
      returns and makes only its calls. */
  lemma GenericRoute(cfg: Environment.Config, c: Collaborators, req: ReviewRequest, clockInScope: bool)
    requires AdapterFor(cfg.provider) == Generic
    ensures var g := GenericReview(cfg, c, req);
            ReviewCodeWith(cfg, c, req, clockInScope) == Review(g.flow.outcome, g.trace)
  {
  }

  /** On a local route past the repository check `review_code` returns the
      local adapter's normalised flow and makes only its calls. */
  lemma LocalRoute(cfg: Environment.Config, c: Collaborators, req: ReviewRequest, clockInScope: bool)
    requires AdapterFor(cfg.provider) != Generic
    requires !(!Truthy(req.repoPath) && NeedsRepository(cfg.provider))
    ensures var a := AdapterFor(cfg.provider);
            var l := LocalReview(a, LocalServiceFor(c, a), req, c.parse, clockInScope);
            ReviewCodeWith(cfg, c, req, clockInScope) == Review(Normalize(l.flow), l.trace)
  {
  }

  /** A provider spelled with capitals, such as `Claude`, passes the exact
      repository-path check but is still routed to the command-line adapter
      by the lower-cased comparison: without a repository path the adapter is
      validated, and the missing-path message is not produced. */
  lemma MixedCaseProviderSkipsRepositoryCheck(
    cfg: Environment.Config, c: Collaborators, req: ReviewRequest, clockInScope: bool)
    requires PyText.Lower(cfg.provider) == "claude" && cfg.provider != "claude"
    requires c.cli.setup.Returns?
    ensures var r := ReviewCodeWith(cfg, c, req, clockInScope);
            |r.trace| >= 1 && r.trace[0] == Validated(ClaudeCli)
  {
    assert !NeedsRepository(cfg.provider) by {
      if cfg.provider == "ollama" {
        assert false;
      }
    }
    LocalRoute(cfg, c, req, clockInScope);
  }

  /** The concrete case: `Claude` without a repository path. */
  lemma CapitalisedClaudeReachesCli(cfg: Environment.Config, c: Collaborators, req: ReviewRequest)
    requires cfg.provider == "Claude" && req.repoPath.None?
    requires c.cli.setup.Returns?
    ensures AdapterFor(cfg.provider) == ClaudeCli
    ensures ReviewCodeAsWritten(cfg, c, req).trace[0] == Validated(ClaudeCli)
  {
    var lower := PyText.Lower(cfg.provider);
    assert lower[0] == PyText.LowerChar('C') == 'c';
    assert lower == "claude";
    MixedCaseProviderSkipsRepositoryCheck(cfg, c, req, false);
  }

  /** An exception escaping a local adapter becomes the missing-module
      message when it is an `ImportError` and the generic failure message
      otherwise. */
  lemma LocalExceptionsAreNormalised(cfg: Environment.Config, c: Collaborators, req: ReviewRequest, clockInScope: bool)
    requires AdapterFor(cfg.provider) != Generic
    requires !(!Truthy(req.repoPath) && NeedsRepository(cfg.provider))
    requires LocalReview(AdapterFor(cfg.provider), LocalServiceFor(c, AdapterFor(cfg.provider)), req, c.parse, clockInScope).flow.Escaped?
    ensures var e := LocalReview(AdapterFor(cfg.provider), LocalServiceFor(c, AdapterFor(cfg.provider)), req, c.parse, clockInScope).flow.exc;
            ReviewCodeWith(cfg, c, req, clockInScope).outcome
              == ErrorMessage(if e.kind == ImportError then MissingModuleMessage(e.message) else FailurePrefix + e.message)
  {
  }

  /** A failed availability check returns its reason and the adapter never
      runs a review. */
  lemma ValidationFailureStopsReview(cfg: Environment.Config, c: Collaborators, req: ReviewRequest, clockInScope: bool)
    requires AdapterFor(cfg.provider) != Generic
    requires !(!Truthy(req.repoPath) && NeedsRepository(cfg.provider))
    requires var svc := LocalServiceFor(c, AdapterFor(cfg.provider));
             svc.setup.Returns? && svc.validate.Returns? && !svc.validate.value.ok
    ensures var r := ReviewCodeWith(cfg, c, req, clockInScope);
            && r.outcome == ErrorMessage(ReportPrefix + LocalServiceFor(c, AdapterFor(cfg.provider)).validate.value.reason)
            && r.trace == [Validated(AdapterFor(cfg.provider))]
  {
  }

  /** A truthy custom prompt is what every adapter sends: the local service
      receives it verbatim and the hosted API is called with it verbatim. */
  lemma CustomPromptIsSentVerbatim(cfg: Environment.Config, c: Collaborators, req: ReviewRequest, clockInScope: bool)
    requires Truthy(req.customPrompt)
    ensures var r := ReviewCodeWith(cfg, c, req, clockInScope);
            forall k :: 0 <= k < |r.trace| ==>
              && (r.trace[k].Executed? ==> r.trace[k].request.prompt == req.customPrompt)
              && (r.trace[k].ApiCalled? ==> r.trace[k].prompt == req.customPrompt.value)
  {
    if !Truthy(req.repoPath) && NeedsRepository(cfg.provider) {
    } else if AdapterFor(cfg.provider) == Generic {
      GenericRouteCarriesCustomPrompt(cfg, c, req, clockInScope);
    } else {
      LocalRouteCarriesCustomPrompt(cfg, c, req, clockInScope);
    }
  }

  /** On the hosted-API route the API is called with the custom prompt. */
  lemma GenericRouteCarriesCustomPrompt(cfg: Environment.Config, c: Collaborators, req: ReviewRequest, clockInScope: bool)
    requires Truthy(req.customPrompt) && AdapterFor(cfg.provider) == Generic
    ensures var r := ReviewCodeWith(cfg, c, req, clockInScope);
            forall k :: 0 <= k < |r.trace| ==>
              && (r.trace[k].Executed? ==> r.trace[k].request.prompt == req.customPrompt)
              && (r.trace[k].ApiCalled? ==> r.trace[k].prompt == req.customPrompt.value)
  {
    GenericRoute(cfg, c, req, clockInScope);
    GenericTraceCarriesCustomPrompt(cfg, c, req);
  }

  /** On a local route past the repository check the service runs with the
      custom prompt. */
  lemma LocalRouteCarriesCustomPrompt(cfg: Environment.Config, c: Collaborators, req: ReviewRequest, clockInScope: bool)
    requires Truthy(req.customPrompt) && AdapterFor(cfg.provider) != Generic
    requires !(!Truthy(req.repoPath) && NeedsRepository(cfg.provider))
    ensures var r := ReviewCodeWith(cfg, c, req, clockInScope);
            forall k :: 0 <= k < |r.trace| ==>
              && (r.trace[k].Executed? ==> r.trace[k].request.prompt == req.customPrompt)
              && (r.trace[k].ApiCalled? ==> r.trace[k].prompt == req.customPrompt.value)
  {
    var a := AdapterFor(cfg.provider);
    LocalRoute(cfg, c, req, clockInScope);
    LocalTraceCarriesCustomPrompt(a, LocalServiceFor(c, a), req, c.parse, clockInScope);
  }

  /** A local service is run with the custom prompt, unchanged. */
  lemma LocalTraceCarriesCustomPrompt(a: Adapter, svc: LocalService, req: ReviewRequest,
                                      parse: RawResult -> Call<ParsedReview>, clockInScope: bool)
    requires Truthy(req.customPrompt)
    ensures var t := LocalReview(a, svc, req, parse, clockInScope).trace;
            forall k :: 0 <= k < |t| ==> !t[k].ApiCalled? && (t[k].Executed? ==> t[k].request.prompt == req.customPrompt)
  {
    assert LocalPrompt(req) == req.customPrompt;
  }

  /** The hosted-API path calls the API with the custom prompt, unchanged. */
  lemma GenericTraceCarriesCustomPrompt(cfg: Environment.Config, c: Collaborators, req: ReviewRequest)
    requires Truthy(req.customPrompt)
    ensures var t := GenericReview(cfg, c, req).trace;
            forall k :: 0 <= k < |t| && t[k].ApiCalled? ==> t[k].prompt == req.customPrompt.value
  {
    var t := GenericReview(cfg, c, req).trace;
    var ex := Extraction.Extract(req.repoPath, req.commitRange, c.workspace);
    if Truthy(ex.context) {
      var rest := ReviewContext(cfg, c, req, ex.context.value).trace;
      ContextTraceCarriesCustomPrompt(cfg, c, req, ex.context.value);
      assert t[1..] == rest;
      forall k | 0 <= k < |t| && t[k].ApiCalled?
        ensures t[k].prompt == req.customPrompt.value
      {
        assert t[k] == rest[k - 1];
      }
    }
  }

  /** The API call after extraction carries the custom prompt, unchanged. */
  lemma ContextTraceCarriesCustomPrompt(cfg: Environment.Config, c: Collaborators, req: ReviewRequest, context: string)
    requires Truthy(req.customPrompt)
    ensures var t := ReviewContext(cfg, c, req, context).trace;
            forall k :: 0 <= k < |t| && t[k].ApiCalled? ==> t[k].prompt == req.customPrompt.value
  {
    assert GenericPrompt(cfg, req, context) == req.customPrompt.value;
  }

  /** Without a diff the hosted-API path returns the fixed message, and only
      the extraction ran. */
  lemma NoContextStopsGenericReview(cfg: Environment.Config, c: Collaborators, req: ReviewRequest, clockInScope: bool)
    requires AdapterFor(cfg.provider) == Generic
    requires !Truthy(Extraction.Extract(req.repoPath, req.commitRange, c.workspace).context)
    ensures var r := ReviewCodeWith(cfg, c, req, clockInScope);
            && r.outcome == ErrorMessage(NoChangeContent)
            && r.trace == [Extracted(Extraction.Extract(req.repoPath, req.commitRange, c.workspace).attempted)]
  {
    GenericRoute(cfg, c, req, clockInScope);
  }

  /** A provider no API serves, the mock one among them, reaches no API:
      the parser is handed the "not supported" message as if it were the
      review. */
  lemma UnsupportedProviderFeedsErrorTextToParser(cfg: Environment.Config, c: Collaborators, req: ReviewRequest, clockInScope: bool)
    requires AdapterFor(cfg.provider) == Generic && ApiFor(cfg.provider).None?
    requires Truthy(Extraction.Extract(req.repoPath, req.commitRange, c.workspace).context)
    ensures var r := ReviewCodeWith(cfg, c, req, clockInScope);
            var ex := Extraction.Extract(req.repoPath, req.commitRange, c.workspace);
            r.trace == [Extracted(ex.attempted), ParserCalled(RawResult(UnsupportedApiMessage(cfg.provider), c.elapsedMs))]
  {
    GenericRoute(cfg, c, req, clockInScope);
    var ex := Extraction.Extract(req.repoPath, req.commitRange, c.workspace);
    var g := GenericReview(cfg, c, req);
    var rest := ReviewContext(cfg, c, req, ex.context.value);
    assert rest.trace == [ParserCalled(RawResult(UnsupportedApiMessage(cfg.provider), c.elapsedMs))];
    assert g.trace == [g.trace[0]] + g.trace[1..];
  }

  /** The mock provider takes the hosted-API path and reaches no API. */
  lemma MockProviderReachesNoApi(cfg: Environment.Config)
    requires cfg.provider == "mock"
    ensures AdapterFor(cfg.provider) == Generic && ApiFor(cfg.provider).None?
    ensures !NeedsRepository(cfg.provider)
  {
    var lower := PyText.Lower(cfg.provider);
    assert lower[0] == PyText.LowerChar('m') == 'm';
  }

  /** The missing-module message comes only from the local adapters: the
      hosted-API path catches an `ImportError` itself and reports it with the
      generic failure prefix. */
  lemma MissingModuleOnlyFromLocalAdapters(cfg: Environment.Config, c: Collaborators, req: ReviewRequest,
                                           clockInScope: bool, detail: string)
    ensures ReviewCodeWith(cfg, c, req, clockInScope).outcome == ErrorMessage(MissingModuleMessage(detail)) ==>
              AdapterFor(cfg.provider) != Generic
  {
    if AdapterFor(cfg.provider) == Generic {
      GenericRoute(cfg, c, req, clockInScope);
      GenericOutcomeIsNotMissingModule(cfg, c, req, detail);
    }
  }

  /** The hosted-API path's error texts all differ from the missing-module
      message: they carry the ASCII-colon prefix or the no-change text. */
  lemma GenericOutcomeIsNotMissingModule(cfg: Environment.Config, c: Collaborators, req: ReviewRequest, detail: string)
    ensures GenericReview(cfg, c, req).flow.outcome != ErrorMessage(MissingModuleMessage(detail))
  {
    var ex := Extraction.Extract(req.repoPath, req.commitRange, c.workspace);
    if Truthy(ex.context) {
      ContextOutcomeIsNotMissingModule(cfg, c, req, ex.context.value, detail);
    } else {
      MessagesDiffer(detail, "");
    }
  }

  /** Reviewing an extracted diff never yields the missing-module message. */
  lemma ContextOutcomeIsNotMissingModule(cfg: Environment.Config, c: Collaborators, req: ReviewRequest,
                                         context: string, detail: string)
    ensures ReviewContext(cfg, c, req, context).flow.outcome != ErrorMessage(MissingModuleMessage(detail))
  {
    var o := ReviewContext(cfg, c, req, context).flow.outcome;
    if o.ErrorMessage? {
      var input := RawResult(CallLlmApi(cfg.provider, GenericPrompt(cfg, req, context), c.apis), c.elapsedMs);
      MessagesDiffer(detail, c.parse(input).exc.message);
    }
  }

  /** The failure prefix and the no-change text both differ from the
      missing-module message at the seventh character. */
  lemma MessagesDiffer(detail: string, message: string)
    ensures FailurePrefix + message != MissingModuleMessage(detail)
    ensures NoChangeContent != MissingModuleMessage(detail)
  {
    var m := MissingModuleMessage(detail);
    assert m[6] == '：' && m[7] == '缺';
    assert NoChangeContent[7] == '未';
    assert (FailurePrefix + message)[6] == ':';
  }

  /** In the code as written a local adapter whose check passes and whose
      service returns always ends in the undefined-name error, whatever the
      service returned. */
  lemma AsWrittenLocalReviewEndsInNameError(cfg: Environment.Config, c: Collaborators, req: ReviewRequest)
    requires AdapterFor(cfg.provider) != Generic
    requires !(!Truthy(req.repoPath) && NeedsRepository(cfg.provider))
    requires var svc := LocalServiceFor(c, AdapterFor(cfg.provider));
             && svc.setup.Returns? && svc.validate.Returns? && svc.validate.value.ok
             && svc.execute(ExecRequest(req.repoPath, LocalPrompt(req), req.commitRange)).Returns?
    ensures ReviewCodeAsWritten(cfg, c, req).outcome == ErrorMessage(FailurePrefix + "name 'time' is not defined")
  {
  }

  /** A local service that loads, passes its check and reports a
      successful review with the text `report`. */
  function WitnessService(): LocalService
  {
    LocalService(Returns(()), Returns(Validation(true, "")),
                 (q: ExecRequest) => Returns(ExecReply(true, RawResult("report", 1), "")))
  }

  /** Collaborators around `WitnessService` whose parser yields a score of
      90 and no issues. */
  function WitnessCollaborators(): Collaborators
  {
    var ws := Extraction.Workspace((p: string) => true, (cmd: Extraction.Command) => Extraction.Raised(""));
    Collaborators(WitnessService(), WitnessService(), ws, (a: Api) => (p: string) => Returns(""),
                  (x: RawResult) => Returns(ParsedReview(90, [])), 0)
  }

  /** A concrete run on which the two versions differ: the command-line tool
      is available and succeeds, and the parser accepts its output. */
  lemma NameErrorWitness()
    ensures var cfg := Environment.Config("claude", None, None, None, false, "");
            var req := ReviewRequest(map[], Some("/repo"), None, None);
            && ReviewCodeAsWritten(cfg, WitnessCollaborators(), req).outcome
                 == ErrorMessage(FailurePrefix + "name 'time' is not defined")
            && ReviewCode(cfg, WitnessCollaborators(), req).outcome == Structured(ParsedReview(90, []))
  {
    var cfg := Environment.Config("claude", None, None, None, false, "");
    var req := ReviewRequest(map[], Some("/repo"), None, None);
    var c := WitnessCollaborators();
    assert PyText.Lower(cfg.provider) == "claude";
    assert AdapterFor(cfg.provider) == ClaudeCli;
    var request := ExecRequest(req.repoPath, LocalPrompt(req), req.commitRange);
    assert c.cli.execute(request) == Returns(ExecReply(true, RawResult("report", 1), ""));
    AsWrittenLocalReviewEndsInNameError(cfg, c, req);
  }
}

=== FILE: environment.dfy ===
/** Loading the active LLM configuration and exporting it into the process
    environment (`LLMService._load_config` and `_set_environment_variables`).
    The configuration store is a parameter; `os.environ` is a map. */
module Environment {
  import opened Outcomes
  import PyText

  /** The active configuration record as the store holds it. */
  datatype ConfigRecord = ConfigRecord(
    provider: string,
    apiKey: Option<string>,
    apiBase: Option<string>,
    model: Option<string>)

  /** The snapshot a service instance keeps after construction. */
  datatype Config = Config(
    provider: string,
    apiKey: Option<string>,
    apiBase: Option<string>,
    model: Option<string>,
    isMock: bool,
    promptTemplate: string)

  type Environ = map<string, string>

  const NoActiveConfig := "未检测到有效的 LLM 配置，请在后台管理或接口中创建并启用一条 LLM 配置"

  /** The prompt used when the settings carry no `GPT_MESSAGE`. */
  const DefaultPromptTemplate :=
    "请仔细审查以下代码变更，重点关注：\n1. 代码质量和最佳实践\n2. 潜在的bug和安全问题\n3. 性能优化建议\n4. 代码风格和可读性\n\n请提供具体的改进建议。"

  /** The mock provider is recognised by an exact, case-sensitive comparison. */
  predicate IsMockProvider(provider: string)
  {
    provider == "mock"
  }

  /** Which configuration value an exported variable carries. */
  datatype Field = ApiKey | ApiBase | Model

  function ValueOf(cfg: Config, f: Field): Option<string>
  {
    match f
    case ApiKey => cfg.apiKey
    case ApiBase => cfg.apiBase
    case Model => cfg.model
  }

  /** The variables one provider family exports; `LLM_MODEL` is exported for
      every family and so is not listed here. */
  function FamilyVariables(family: string): set<string>
  {
    if family == "openai" then {"OPENAI_API_KEY", "OPENAI_API_BASE"}
    else if family == "deepseek" then {"DEEPSEEK_API_KEY", "DEEPSEEK_API_BASE"}
    else if family == "claude" then {"ANTHROPIC_API_KEY"}
    else if family == "gemini" then {"GOOGLE_API_KEY"}
    else if family == "ollama" then {"OLLAMA_API_BASE"}
    else {}
  }

  /** The configuration field behind each exported variable name. */
  function FieldOf(name: string): Option<Field>
  {
    if name in {"OPENAI_API_KEY", "DEEPSEEK_API_KEY", "ANTHROPIC_API_KEY", "GOOGLE_API_KEY"} then Some(ApiKey)
    else if name in {"OPENAI_API_BASE", "DEEPSEEK_API_BASE", "OLLAMA_API_BASE"} then Some(ApiBase)
    else if name == "LLM_MODEL" then Some(Model)
    else None
  }

  /** Whether `_set_environment_variables` exports `name`: it belongs to the
      provider's family (matched after lower-casing) or is `LLM_MODEL`, and
      the configuration value behind it is truthy. */
  predicate Exported(cfg: Config, name: string)
  {
    && !cfg.isMock
    && (name in FamilyVariables(PyText.Lower(cfg.provider)) || name == "LLM_MODEL")
    && FieldOf(name).Some?
    && Truthy(ValueOf(cfg, FieldOf(name).value))
  }

  /** One `os.environ[name] = value` statement. */
  datatype Assignment = Assignment(name: string, value: string)

  /** `os.environ` refuses a value holding a NUL character (`ValueError:
      embedded null byte`); every other value is accepted. */
  predicate Assignable(value: string)
  {
    '\0' !in value
  }

  /** No two assignments name the same variable. */
  predicate DistinctNames(ps: seq<Assignment>)
  {
    forall j, k :: 0 <= j < k < |ps| ==> ps[j].name != ps[k].name
  }

  /** The assignment of `name` when the value is truthy. */
  function AssignIfTruthy(name: string, value: Option<string>): seq<Assignment>
  {
    if Truthy(value) then [Assignment(name, value.value)] else []
  }

  /** The family-specific assignments, in the order the code makes them: the
      family's variables whose value is truthy. */
  function FamilyAssignments(cfg: Config, family: string): (ps: seq<Assignment>)
    ensures FamilyFacts(cfg, family, ps)
    // a family's base URL comes after its key
    ensures forall k :: 0 < k < |ps| ==> FieldOf(ps[k].name) == Some(ApiBase)
  {
    FieldsOfNames();
    if family == "openai" then
      PairFacts(cfg, family, "OPENAI_API_KEY", ApiKey, "OPENAI_API_BASE", ApiBase);
      AssignIfTruthy("OPENAI_API_KEY", cfg.apiKey) + AssignIfTruthy("OPENAI_API_BASE", cfg.apiBase)
    else if family == "deepseek" then
      PairFacts(cfg, family, "DEEPSEEK_API_KEY", ApiKey, "DEEPSEEK_API_BASE", ApiBase);
      AssignIfTruthy("DEEPSEEK_API_KEY", cfg.apiKey) + AssignIfTruthy("DEEPSEEK_API_BASE", cfg.apiBase)
    else if family == "claude" then
      SingleFacts(cfg, family, "ANTHROPIC_API_KEY", ApiKey);
      AssignIfTruthy("ANTHROPIC_API_KEY", cfg.apiKey)
    else if family == "gemini" then
      SingleFacts(cfg, family, "GOOGLE_API_KEY", ApiKey);
      AssignIfTruthy("GOOGLE_API_KEY", cfg.apiKey)
    else if family == "ollama" then
      SingleFacts(cfg, family, "OLLAMA_API_BASE", ApiBase);
      AssignIfTruthy("OLLAMA_API_BASE", cfg.apiBase)
    else
      []
  }

  /** `ps` assigns exactly the family's variables whose value is truthy, each
      once and with its configuration value. */
  predicate FamilyFacts(cfg: Config, family: string, ps: seq<Assignment>)
  {
    && DistinctNames(ps)
    && (forall k :: 0 <= k < |ps| ==>
          && ps[k].name in FamilyVariables(family) && FieldOf(ps[k].name).Some?
          && Truthy(ValueOf(cfg, FieldOf(ps[k].name).value))
          && ps[k].value == ValueOf(cfg, FieldOf(ps[k].name).value).value)
    && (forall name :: name in FamilyVariables(family) && FieldOf(name).Some? && Truthy(ValueOf(cfg, FieldOf(name).value)) ==>
          exists k :: 0 <= k < |ps| && ps[k].name == name)
  }

  /** A family of two variables assigns those whose value is truthy. */
  lemma PairFacts(cfg: Config, family: string, n1: string, f1: Field, n2: string, f2: Field)
    requires FamilyVariables(family) == {n1, n2} && n1 != n2
    requires FieldOf(n1) == Some(f1) && FieldOf(n2) == Some(f2)
    ensures FamilyFacts(cfg, family, AssignIfTruthy(n1, ValueOf(cfg, f1)) + AssignIfTruthy(n2, ValueOf(cfg, f2)))
  {
    var ps := AssignIfTruthy(n1, ValueOf(cfg, f1)) + AssignIfTruthy(n2, ValueOf(cfg, f2));
    assert Truthy(ValueOf(cfg, f1)) ==> ps[0].name == n1;
    assert Truthy(ValueOf(cfg, f2)) ==> ps[|ps| - 1].name == n2;
  }

  /** A family of one variable assigns it when its value is truthy. */
  lemma SingleFacts(cfg: Config, family: string, n: string, f: Field)
    requires FamilyVariables(family) == {n}
    requires FieldOf(n) == Some(f)
    ensures FamilyFacts(cfg, family, AssignIfTruthy(n, ValueOf(cfg, f)))
  {
    var ps := AssignIfTruthy(n, ValueOf(cfg, f));
    assert Truthy(ValueOf(cfg, f)) ==> ps[0].name == n;
  }

  /** The assignments `_set_environment_variables` attempts, in order: exactly
      the exported names, each once and with its configuration value, the
      family's first and `LLM_MODEL` last. */
  function PlannedAssignments(cfg: Config): (ps: seq<Assignment>)
    ensures cfg.isMock ==> ps == []
    ensures DistinctNames(ps)
    ensures forall k :: 0 <= k < |ps| ==>
              && Exported(cfg, ps[k].name)
              && ps[k].value == ValueOf(cfg, FieldOf(ps[k].name).value).value
    ensures forall name :: Exported(cfg, name) ==> exists k :: 0 <= k < |ps| && ps[k].name == name
    ensures forall k :: 0 <= k < |ps| - 1 ==> ps[k].name != "LLM_MODEL"
    // the API key, when exported, is attempted first
    ensures forall k :: 0 < k < |ps| ==> FieldOf(ps[k].name) != Some(ApiKey)
  {
    if cfg.isMock then []
    else
      var family := PyText.Lower(cfg.provider);
      ModelIsShared(family);
      var fam := FamilyAssignments(cfg, family);
      var ps := fam + AssignIfTruthy("LLM_MODEL", cfg.model);
      assert forall k :: 0 <= k < |fam| ==> ps[k] == fam[k];
      assert Truthy(cfg.model) ==> ps[|ps| - 1].name == "LLM_MODEL";
      assert forall k :: |fam| <= k < |ps| ==> ps[k].name == "LLM_MODEL";
      ps
  }

  /** The field behind each family variable. */
  lemma FieldsOfNames()
    ensures FieldOf("OPENAI_API_KEY") == Some(ApiKey) && FieldOf("OPENAI_API_BASE") == Some(ApiBase)
    ensures FieldOf("DEEPSEEK_API_KEY") == Some(ApiKey) && FieldOf("DEEPSEEK_API_BASE") == Some(ApiBase)
    ensures FieldOf("ANTHROPIC_API_KEY") == Some(ApiKey) && FieldOf("GOOGLE_API_KEY") == Some(ApiKey)
    ensures FieldOf("OLLAMA_API_BASE") == Some(ApiBase)
  {
  }

  /** `LLM_MODEL` belongs to no family and carries the model. */
  lemma ModelIsShared(family: string)
    ensures "LLM_MODEL" !in FamilyVariables(family)
    ensures FieldOf("LLM_MODEL") == Some(Model)
  {
  }

  /** How many assignments run before the first refused value. */
  function Accepted(ps: seq<Assignment>): (n: nat)
    ensures n <= |ps|
    ensures forall k :: 0 <= k < n ==> Assignable(ps[k].value)
    ensures n < |ps| ==> !Assignable(ps[n].value)
  {
    if ps == [] || !Assignable(ps[0].value) then 0 else 1 + Accepted(ps[1..])
  }

  /** Runs the assignments in order. The first refused value raises, and the
      `except` around them drops the remaining ones. */
  function Apply(env: Environ, ps: seq<Assignment>): (r: Environ)
    requires DistinctNames(ps)
    ensures forall k :: 0 <= k < Accepted(ps) ==> ps[k].name in r && r[ps[k].name] == ps[k].value
    ensures forall name :: (forall k :: 0 <= k < Accepted(ps) ==> ps[k].name != name) ==>
              (name in r <==> name in env) && (name in env ==> r[name] == env[name])
    decreases |ps|
  {
    if ps == [] || !Assignable(ps[0].value) then env
    else
      var r := Apply(env[ps[0].name := ps[0].value], ps[1..]);
      assert forall k :: 1 <= k < Accepted(ps) ==> ps[1..][k - 1] == ps[k];
      r
  }

  /** `os.environ` after `_set_environment_variables`: the assignments made
      before the first refused value take effect and nothing else changes; a
      mock configuration changes nothing. */
  function SetEnvironmentVariables(cfg: Config, env: Environ): (r: Environ)
    ensures cfg.isMock ==> r == env
    // a variable that is not exported keeps its value (or its absence)
    ensures forall name :: !Exported(cfg, name) ==>
              (name in r <==> name in env) && (name in env ==> r[name] == env[name])
    // with no refused value, every exported variable carries its value
    ensures (forall name :: Exported(cfg, name) ==> Assignable(ValueOf(cfg, FieldOf(name).value).value)) ==>
              forall name :: Exported(cfg, name) ==> name in r && r[name] == ValueOf(cfg, FieldOf(name).value).value
    // the first refused value stops the rest
    ensures var ps := PlannedAssignments(cfg);
            && (forall k :: 0 <= k < Accepted(ps) ==> ps[k].name in r && r[ps[k].name] == ps[k].value)
            && (forall k :: Accepted(ps) <= k < |ps| ==>
                  (ps[k].name in r <==> ps[k].name in env) && (ps[k].name in env ==> r[ps[k].name] == env[ps[k].name]))
  {
    var ps := PlannedAssignments(cfg);
    var r := Apply(env, ps);
    RefusedKeepsRest(env, ps, r);
    UnexportedUnchanged(cfg, env, ps, r);
    AllExportedWhenAssignable(cfg, env, ps, r);
    r
  }

  /** The assignments from the first refused one on leave their variables as
      they were. */
  lemma RefusedKeepsRest(env: Environ, ps: seq<Assignment>, r: Environ)
    requires DistinctNames(ps) && r == Apply(env, ps)
    ensures forall k :: Accepted(ps) <= k < |ps| ==>
              (ps[k].name in r <==> ps[k].name in env) && (ps[k].name in env ==> r[ps[k].name] == env[ps[k].name])
  {
    forall k | Accepted(ps) <= k < |ps|
      ensures (ps[k].name in r <==> ps[k].name in env) && (ps[k].name in env ==> r[ps[k].name] == env[ps[k].name])
    {
      assert forall j :: 0 <= j < Accepted(ps) ==> ps[j].name != ps[k].name;
    }
  }

  /** A variable the configuration does not export is never assigned. */
  lemma UnexportedUnchanged(cfg: Config, env: Environ, ps: seq<Assignment>, r: Environ)
    requires ps == PlannedAssignments(cfg) && r == Apply(env, ps)
    ensures forall name :: !Exported(cfg, name) ==>
              (name in r <==> name in env) && (name in env ==> r[name] == env[name])
  {
    forall name | !Exported(cfg, name)
      ensures (name in r <==> name in env) && (name in env ==> r[name] == env[name])
    {
      assert forall j :: 0 <= j < Accepted(ps) ==> Exported(cfg, ps[j].name);
    }
  }

  /** When every exported value is assignable, no planned assignment is
      refused, so every exported variable ends up with its value. */
  lemma AllExportedWhenAssignable(cfg: Config, env: Environ, ps: seq<Assignment>, r: Environ)
    requires ps == PlannedAssignments(cfg) && r == Apply(env, ps)
    ensures (forall name :: Exported(cfg, name) ==> Assignable(ValueOf(cfg, FieldOf(name).value).value)) ==>
              forall name :: Exported(cfg, name) ==> name in r && r[name] == ValueOf(cfg, FieldOf(name).value).value
  {
    if forall name :: Exported(cfg, name) ==> Assignable(ValueOf(cfg, FieldOf(name).value).value) {
      assert Accepted(ps) == |ps| by {
        assert forall k :: 0 <= k < |ps| ==> Assignable(ps[k].value);
        AllAccepted(ps);
      }
      forall name | Exported(cfg, name)
        ensures name in r && r[name] == ValueOf(cfg, FieldOf(name).value).value
      {
        ExportedIsSet(cfg, env, ps, r, name);
      }
    }
  }

  /** Once every planned assignment has run, each exported variable carries
      its value. */
  lemma ExportedIsSet(cfg: Config, env: Environ, ps: seq<Assignment>, r: Environ, name: string)
    requires ps == PlannedAssignments(cfg) && r == Apply(env, ps) && Accepted(ps) == |ps|
    requires Exported(cfg, name)
    ensures name in r && r[name] == ValueOf(cfg, FieldOf(name).value).value
  {
    var k :| 0 <= k < |ps| && ps[k].name == name;
  }

  /** With no refused value every assignment runs. */
  lemma AllAccepted(ps: seq<Assignment>)
    requires forall k :: 0 <= k < |ps| ==> Assignable(ps[k].value)
    ensures Accepted(ps) == |ps|
  {
  }

  /** Exporting the same configuration twice leaves the environment as
      exporting it once does. */
  lemma SetEnvironmentVariablesIdempotent(cfg: Config, env: Environ)
    ensures SetEnvironmentVariables(cfg, SetEnvironmentVariables(cfg, env)) == SetEnvironmentVariables(cfg, env)
  {
    ApplyIdempotent(env, PlannedAssignments(cfg));
  }

  /** Running the same assignments twice leaves what running them once does:
      the second run sets the same variables to the same values and stops at
      the same refused value. */
  lemma ApplyIdempotent(env: Environ, ps: seq<Assignment>)
    requires DistinctNames(ps)
    ensures Apply(Apply(env, ps), ps) == Apply(env, ps)
  {
    var once := Apply(env, ps);
    var twice := Apply(once, ps);
    forall name | name in once || name in twice
      ensures name in twice && name in once && twice[name] == once[name]
    {
      if k :| 0 <= k < Accepted(ps) && ps[k].name == name {
        assert twice[name] == ps[k].value;
      }
    }
    assert twice.Keys == once.Keys;
  }

  /** A refused API key stops the export at the first statement, whatever the
      family: the key is attempted before the base URL and the model, so
      nothing changes. */
  lemma RefusedKeyStopsExport(cfg: Config, env: Environ, name: string)
    requires Exported(cfg, name) && FieldOf(name) == Some(ApiKey)
    requires !Assignable(cfg.apiKey.value)
    ensures SetEnvironmentVariables(cfg, env) == env
  {
    var ps := PlannedAssignments(cfg);
    var k :| 0 <= k < |ps| && ps[k].name == name;
    assert k == 0;
    assert Accepted(ps) == 0;
    var r := SetEnvironmentVariables(cfg, env);
    assert r.Keys == env.Keys;
  }

  /** A NUL in the API key of an `openai` configuration stops the export at
      the first statement: neither the base URL nor the model is exported. */
  lemma NulInKeyStopsExport()
    ensures var cfg := Config("openai", Some("a\0b"), Some("u"), Some("m"), false, "");
            SetEnvironmentVariables(cfg, map[]) == map[]
  {
    var cfg := Config("openai", Some("a\0b"), Some("u"), Some("m"), false, "");
    assert PyText.Lower(cfg.provider) == "openai";
    var ps := PlannedAssignments(cfg);
    assert ps[0] == Assignment("OPENAI_API_KEY", "a\0b");
    assert !Assignable("a\0b") by { assert "a\0b"[1] == '\0'; }
    assert Accepted(ps) == 0;
  }

  /** `getattr(settings, 'GPT_MESSAGE', default)`. */
  function PromptTemplate(gptMessage: Option<string>): (r: string)
    ensures gptMessage.Some? ==> r == gptMessage.value
    ensures gptMessage.None? ==> r == DefaultPromptTemplate
  {
    match gptMessage
    case Some(m) => m
    case None => DefaultPromptTemplate
  }

  /** The outcome of constructing the service: the configuration snapshot and
      the environment it leaves, or the configuration error. */
  datatype Loaded = Loaded(config: Config, environ: Environ) | ConfigError(message: string)

  /** `LLMService.__init__`: load the active record, flag the mock provider,
      export the environment for every other provider, pick the template. */
  function LoadConfig(active: Option<ConfigRecord>, gptMessage: Option<string>, env: Environ): (r: Loaded)
    ensures active.None? <==> r.ConfigError?
    ensures r.ConfigError? ==> r.message == NoActiveConfig
    ensures r.Loaded? ==>
              && r.config.provider == active.value.provider
              && r.config.apiKey == active.value.apiKey
              && r.config.apiBase == active.value.apiBase
              && r.config.model == active.value.model
              && (r.config.isMock <==> IsMockProvider(active.value.provider))
              && r.config.promptTemplate == PromptTemplate(gptMessage)
              && r.environ == SetEnvironmentVariables(r.config, env)
  {
    match active
    case None => ConfigError(NoActiveConfig)
    case Some(rec) =>
      var cfg := Config(rec.provider, rec.apiKey, rec.apiBase, rec.model,
                        IsMockProvider(rec.provider), PromptTemplate(gptMessage));
      Loaded(cfg, if cfg.isMock then env else SetEnvironmentVariables(cfg, env))
  }

}

=== FILE: extraction.dfy ===
/** Extracting a bounded diff from a local repository
    (`_get_code_context_from_repo`): infer a commit range when none is given,
    try five git probes in a fixed order, stop at the first that yields output,
    truncate it, and fall back to a short repository summary when every probe
    fails. Git itself is a parameter: a function from a command line to what
    running it in the repository gives, so running the same command twice
    gives the same answer. */
module Extraction {
  import opened Outcomes
  import PyText

  /** A command line, as handed to `subprocess.run`. */
  type Command = seq<string>

  /** What `subprocess.run` gives: a finished process, or an exception
      (a timeout, a missing binary, ...). */
  datatype CmdResult = Completed(returnCode: int, stdout: string) | Raised(message: string)

  /** The file system and git, as the extraction observes them. */
  datatype Workspace = Workspace(pathExists: string -> bool, run: Command -> CmdResult)

  /** The extracted context, with the probes that were run, in order. */
  datatype Extraction = Extraction(context: Option<string>, attempted: seq<Command>)

  const Cap := 20000
  const TruncationMarker := "\n\n...(内容过长已截断)"

  const RevParseHead: Command := ["git", "rev-parse", "--abbrev-ref", "HEAD"]
  const RemoteShowOrigin: Command := ["git", "remote", "show", "origin"]
  const LastCommitMessage: Command := ["git", "log", "-1", "--pretty=%B"]

  /** Output longer than the cap keeps its first `Cap` characters and gets
      the marker appended; anything else is kept whole. */
  function Truncate(s: string): (r: string)
    ensures |s| <= Cap ==> r == s
    ensures |s| > Cap ==> |r| == Cap + |TruncationMarker| && r[..Cap] == s[..Cap] && r[Cap..] == TruncationMarker
    ensures |r| <= Cap + |TruncationMarker|
  {
    if |s| > Cap then s[..Cap] + TruncationMarker else s
  }

  /** Truncating twice is truncating once. */
  lemma TruncateIdempotent(s: string)
    ensures Truncate(Truncate(s)) == Truncate(s)
  {
    if |s| > Cap {
      var r := Truncate(s);
      assert r[..Cap] + TruncationMarker == r;
    }
  }

  /** `\w` on ASCII: letters, digits and the underscore. */
  predicate IsWordChar(c: char)
  {
    ('a' <= c <= 'z') || ('A' <= c <= 'Z') || ('0' <= c <= '9') || c == '_'
  }

  const HeadBranchLabel := "HEAD branch: "

  /** `HEAD branch: \w` matches at position `i` of `s`. */
  predicate MatchesAt(s: string, i: nat)
  {
    i + |HeadBranchLabel| < |s| && s[i..i + |HeadBranchLabel|] == HeadBranchLabel
    && IsWordChar(s[i + |HeadBranchLabel|])
  }

  /** The longest run of word characters that `s` starts with (`\w+`). */
  function WordRun(s: string): (r: string)
    ensures |r| <= |s| && r == s[..|r|]
    ensures forall k :: 0 <= k < |r| ==> IsWordChar(r[k])
    ensures |r| == |s| || !IsWordChar(s[|r|])
  {
    if s != [] && IsWordChar(s[0]) then [s[0]] + WordRun(s[1..]) else []
  }

  /** The leftmost position at or after `from` where the pattern matches. */
  function FindHeadBranch(s: string, from: nat): (r: Option<nat>)
    ensures r.Some? ==> from <= r.value && MatchesAt(s, r.value)
    ensures r.Some? ==> forall j :: from <= j < r.value ==> !MatchesAt(s, j)
    ensures r.None? ==> forall j :: from <= j ==> !MatchesAt(s, j)
    decreases |s| - from
  {
    if from + |HeadBranchLabel| >= |s| then None
    else if MatchesAt(s, from) then Some(from)
    else FindHeadBranch(s, from + 1)
  }

  /** `re.search(r"HEAD branch: (\w+)", s).group(1)`, or `None` without a
      match: the word run after the leftmost label followed by a word
      character. */
  function HeadBranch(s: string): (r: Option<string>)
    ensures r.None? <==> forall j: nat :: !MatchesAt(s, j)
    ensures r.Some? ==> exists i: nat :: MatchesAt(s, i) && (forall j: nat :: j < i ==> !MatchesAt(s, j))
                                    && r.value == WordRun(s[i + |HeadBranchLabel|..])
    ensures r.Some? ==> r.value != [] && forall k :: 0 <= k < |r.value| ==> IsWordChar(r.value[k])
  {
    match FindHeadBranch(s, 0)
    case None => None
    case Some(i) => Some(WordRun(s[i + |HeadBranchLabel|..]))
  }

  /** `subprocess.run(cmd).stdout.strip()`, or `None` when the call raises. */
  function StrippedOutput(run: Command -> CmdResult, cmd: Command): Option<string>
  {
    match run(cmd)
    case Raised(_) => None
    case Completed(_, out) => Some(PyText.Strip(out))
  }

  /** The commit range the probes use: a truthy range is kept; otherwise it
      becomes `default..current` when the remote description names a HEAD
      branch, and stays as given when anything in between fails. */
  function InferRange(range: Option<string>, run: Command -> CmdResult): (r: Option<string>)
    ensures Truthy(range) ==> r == range
    ensures !Truthy(range) && StrippedOutput(run, RevParseHead).Some? && run(RemoteShowOrigin).Completed?
            && HeadBranch(run(RemoteShowOrigin).stdout).Some? ==>
              r == Some(HeadBranch(run(RemoteShowOrigin).stdout).value + ".." + StrippedOutput(run, RevParseHead).value)
    ensures r != range ==>
              && StrippedOutput(run, RevParseHead).Some?
              && run(RemoteShowOrigin).Completed?
              && HeadBranch(run(RemoteShowOrigin).stdout).Some?
              && r == Some(HeadBranch(run(RemoteShowOrigin).stdout).value + ".." + StrippedOutput(run, RevParseHead).value)
  {
    if Truthy(range) then range
    else match StrippedOutput(run, RevParseHead)
      case None => range
      case Some(current) =>
        match run(RemoteShowOrigin)
        case Raised(_) => range
        case Completed(_, remote) =>
          match HeadBranch(remote)
          case None => range
          case Some(default) => Some(default + ".." + current)
  }

  /** The current branch for the fourth probe, `""` when the call raises. */
  function CurrentBranch(run: Command -> CmdResult): (r: string)
    ensures StrippedOutput(run, RevParseHead).None? ==> r == ""
    ensures StrippedOutput(run, RevParseHead).Some? ==> r == StrippedOutput(run, RevParseHead).value
    ensures r == [] || (!PyText.IsSpace(r[0]) && !PyText.IsSpace(r[|r| - 1]))
  {
    match StrippedOutput(run, RevParseHead)
    case None => ""
    case Some(b) => b
  }

  /** The five probes, most relevant first. */
  function Probes(range: Option<string>, current: string): (ps: seq<Command>)
    ensures |ps| == 5
    ensures ps[0] == (if Truthy(range) then ["git", "diff", range.value] else ["git", "diff"])
    ensures ps[3] == (if current != "" then ["git", "diff", "origin/" + current] else ["git", "diff"])
  {
    [ if Truthy(range) then ["git", "diff", range.value] else ["git", "diff"],
      ["git", "log", "-p", "-5"],
      ["git", "diff", "HEAD"],
      if current != "" then ["git", "diff", "origin/" + current] else ["git", "diff"],
      ["git", "diff", "HEAD~1", "HEAD"] ]
  }

  /** A probe that finished with status 0 and printed something. */
  predicate Yields(r: CmdResult)
  {
    r.Completed? && r.returnCode == 0 && r.stdout != ""
  }

  /** The first probe that yields, with its output, or none. */
  datatype Scan = Found(index: nat, output: string) | Exhausted

  /** The short-circuiting fold over the probes. */
  function ScanProbes(probes: seq<Command>, run: Command -> CmdResult): (r: Scan)
    ensures r.Found? ==> r.index < |probes| && Yields(run(probes[r.index]))
                         && r.output == run(probes[r.index]).stdout
    ensures r.Found? ==> forall j :: 0 <= j < r.index ==> !Yields(run(probes[j]))
    ensures r.Exhausted? <==> forall j :: 0 <= j < |probes| ==> !Yields(run(probes[j]))
  {
    if |probes| == 0 then Exhausted
    else if Yields(run(probes[0])) then Found(0, run(probes[0]).stdout)
    else match ScanProbes(probes[1..], run)
      case Found(i, out) => Found(i + 1, out)
      case Exhausted => Exhausted
  }

  /** The fixed text of the summary: a title and the branch label before the
      branch, the commit label on the next line, and a closing note. */
  const SummaryHead := "# 仓库信息\n\n- 当前分支: "
  const SummaryMiddle := "\n- 最新提交: "
  const SummaryTail := "\n- 注意: 无法获取代码变更详情，请检查仓库状态\n"

  /** The fallback text naming the branch and the last commit message, or
      `None` when either git call raises. The stripped branch follows the
      title and its label, the stripped commit message follows its label on
      the next line, and the note closes the text. */
  function RepositorySummary(run: Command -> CmdResult): (r: Option<string>)
    ensures r.Some? <==> StrippedOutput(run, RevParseHead).Some? && StrippedOutput(run, LastCommitMessage).Some?
    ensures r.Some? ==>
              var b := StrippedOutput(run, RevParseHead).value;
              var c := StrippedOutput(run, LastCommitMessage).value;
              var h := |SummaryHead|;
              var m := h + |b| + |SummaryMiddle|;
              && |r.value| == m + |c| + |SummaryTail|
              && r.value[..h] == SummaryHead
              && r.value[h..h + |b|] == b
              && r.value[h + |b|..m] == SummaryMiddle
              && r.value[m..m + |c|] == c
              && r.value[m + |c|..] == SummaryTail
  {
    match StrippedOutput(run, RevParseHead)
    case None => None
    case Some(branch) =>
      match StrippedOutput(run, LastCommitMessage)
      case None => None
      case Some(commit) =>
        Layout(SummaryHead, branch, SummaryMiddle, commit, SummaryTail);
        Some(SummaryHead + (branch + (SummaryMiddle + (commit + SummaryTail))))
  }

  /** Where each part of a right-nested concatenation of five pieces sits. */
  lemma Layout(p: string, b: string, q: string, c: string, z: string)
    ensures var r := p + (b + (q + (c + z)));
            var h := |p|;
            var m := h + |b| + |q|;
            && |r| == m + |c| + |z|
            && r[..h] == p
            && r[h..h + |b|] == b
            && r[h + |b|..m] == q
            && r[m..m + |c|] == c
            && r[m + |c|..] == z
  {
    var s3 := c + z;
    var s2 := q + s3;
    var s1 := b + s2;
    var r := p + s1;
    assert r[..|p|] == p && r[|p|..] == s1;
    Shift(r, |p|, s1, |b|);
    assert s1[..|b|] == b && s1[|b|..] == s2;
    Shift(r, |p| + |b|, s2, |q|);
    assert s2[..|q|] == q && s2[|q|..] == s3;
    Shift(r, |p| + |b| + |q|, s3, |c|);
    assert s3[..|c|] == c && s3[|c|..] == z;
  }

  /** A slice of a suffix is a slice of the whole. */
  lemma Shift(r: string, a: nat, u: string, m: nat)
    requires a <= |r| && u == r[a..] && m <= |u|
    ensures r[a..a + m] == u[..m] && r[a + m..] == u[m..]
  {
  }

  /** The probes an extraction in this workspace would try. */
  function PlannedProbes(range: Option<string>, run: Command -> CmdResult): seq<Command>
  {
    Probes(InferRange(range, run), CurrentBranch(run))
  }

  /** `_get_code_context_from_repo`. */
  function Extract(repoPath: Option<string>, range: Option<string>, ws: Workspace): (e: Extraction)
    // a missing repository runs nothing and yields nothing
    ensures (repoPath.None? || !ws.pathExists(repoPath.value)) ==> e == Extraction(None, [])
    // otherwise the probes run are a non-empty prefix of the planned ones,
    // every probe but the last one run failed ...
    ensures repoPath.Some? && ws.pathExists(repoPath.value) ==>
              var ps := PlannedProbes(range, ws.run);
              && 1 <= |e.attempted| <= |ps|
              && e.attempted == ps[..|e.attempted|]
              && (forall j :: 0 <= j < |e.attempted| - 1 ==> !Yields(ws.run(ps[j])))
    // ... the last one run is the first that yields, and gives the output ...
              && (Yields(ws.run(e.attempted[|e.attempted| - 1])) ==>
                    e.context == Some(Truncate(ws.run(e.attempted[|e.attempted| - 1]).stdout)))
    // ... or, when none yields, all five were run and the summary is returned
              && (!Yields(ws.run(e.attempted[|e.attempted| - 1])) ==>
                    e.attempted == ps && e.context == RepositorySummary(ws.run))
    ensures e.context.Some? ==> e.context.value != ""
  {
    if repoPath.None? || !ws.pathExists(repoPath.value) then Extraction(None, [])
    else
      var ps := PlannedProbes(range, ws.run);
      match ScanProbes(ps, ws.run)
      case Found(i, out) => Extraction(Some(Truncate(out)), ps[..i + 1])
      case Exhausted => Extraction(RepositorySummary(ws.run), ps)
  }

  /** Output taken from a probe never exceeds the cap plus the marker; the
      summary fallback is not truncated. */
  lemma ProbeOutputIsBounded(repoPath: Option<string>, range: Option<string>, ws: Workspace)
    requires repoPath.Some? && ws.pathExists(repoPath.value)
    requires ScanProbes(PlannedProbes(range, ws.run), ws.run).Found?
    ensures Extract(repoPath, range, ws).context.Some?
    ensures |Extract(repoPath, range, ws).context.value| <= Cap + |TruncationMarker|
  {
  }

  /** On a typical `git remote show origin` report the default branch is the
      word after the label, up to the line break. */
  lemma HeadBranchOfRemoteReport()
    ensures HeadBranch("  HEAD branch: main\n") == Some("main")
  {
    var s := "  HEAD branch: main\n";
    assert !MatchesAt(s, 0) by { assert s[0] == ' '; }
    assert !MatchesAt(s, 1) by { assert s[1] == ' '; }
    assert MatchesAt(s, 2) by { assert s[2..2 + |HeadBranchLabel|] == HeadBranchLabel; }
    assert FindHeadBranch(s, 2) == Some(2);
    assert FindHeadBranch(s, 1) == Some(2);
    assert FindHeadBranch(s, 0) == Some(2);
    WordRunOfMain();
    assert s[2 + |HeadBranchLabel|..] == "main\n";
  }

  /** The word run of `main` followed by a line break is `main`. */
  lemma WordRunOfMain()
    ensures WordRun("main\n") == "main"
  {
    var t := "main\n";
    assert WordRun(t[4..]) == [] by { assert t[4..] == "\n"; }
    assert t[1..][1..][1..][1..] == t[4..];
    assert t[1..] == "ain\n" && t[2..] == "in\n" && t[3..] == "n\n";
  }

  /** With that report and the current branch `feature`, an empty range
      becomes `main..feature`. */
  lemma InferRangeFromRemoteReport(run: Command -> CmdResult)
    requires run(RevParseHead) == Completed(0, "feature\n")
    requires run(RemoteShowOrigin) == Completed(0, "  HEAD branch: main\n")
    ensures InferRange(None, run) == Some("main" + ".." + "feature")
  {
    HeadBranchOfRemoteReport();
    StripOfLine();
    assert StrippedOutput(run, RevParseHead) == Some("feature");
    assert HeadBranch(run(RemoteShowOrigin).stdout) == Some("main");
  }

  /** Stripping drops the trailing line break of git's output. */
  lemma StripOfLine()
    ensures PyText.Strip("feature\n") == "feature"
  {
    var s := "feature\n";
    assert PyText.SkipSpace(s, 0) == 0;
    assert PyText.SkipSpaceBack(s, 0, 7) == 7;
    assert PyText.SkipSpaceBack(s, 0, 8) == 7;
    assert s[0..7] == "feature";
  }
}

=== FILE: outcomes.dfy ===
/** Shapes shared by every part of the review service model: optional values,
    the Python exceptions the service distinguishes, and the result of calling
    a collaborator whose inside the model does not look at. */
module Outcomes {

  /** `None` or a present value; Python's `None` for an optional argument. */
  datatype Option<+T> = None | Some(value: T)

  /** The exception classes whose handling differs in the service: an
      `ImportError` gets its own message at the dispatch boundary, every other
      class is reported through the generic catch-all. */
  datatype ExceptionKind = ImportError | NameError | OtherError

  /** A raised exception; `message` is what `str(e)` renders. */
  datatype Exception = Exception(kind: ExceptionKind, message: string)

  /** The result of invoking a collaborator: it returns a value or raises. */
  datatype Call<+T> = Returns(value: T) | Raises(exc: Exception)

  /** Python truthiness of an optional string: `None` and `""` are falsy. */
  predicate Truthy(s: Option<string>)
  {
    s.Some? && s.value != ""
  }
}

=== FILE: prompts.dfy ===
/** Prompt assembly (`_build_claude_cli_prompt`, `_build_generic_llm_prompt`,
    `_build_prompt`). Both review templates are lists of lines joined with
    newlines: the merge-request header, an optional description line, the
    fixed instruction body, a tool line, the closing notes, and for the
    hosted-API variant the diff as a fenced block. The long instruction body
    before the tool line is kept as constant lines; only its section headings
    are spelled out. */
module Prompts {
  import opened Outcomes
  import PyText

  /** The merge-request metadata; a missing key is simply absent. `None` and
      an empty dictionary behave alike (both are falsy and never read), so
      both are the empty map. */
  type MrInfo = map<string, string>

  const Unknown := "未知"
  const DescriptionLabel := "- 描述: "
  const DiffHeading := "## 代码变更内容"

  /** `mr_info.get(key, '未知')`. */
  function Field(mr: MrInfo, key: string): string
  {
    if key in mr then mr[key] else Unknown
  }

  /** `mr_info.get('description')` is truthy. */
  predicate HasDescription(mr: MrInfo)
  {
    "description" in mr && mr["description"] != ""
  }

  function HeaderLines(mr: MrInfo): seq<string>
  {
    [ "请对这个 Merge Request 进行详细的代码审查：",
      "",
      "**MR 信息**",
      "- 标题: " + Field(mr, "title"),
      "- 作者: " + Field(mr, "author"),
      "- 源分支: " + Field(mr, "source_branch"),
      "- 目标分支: " + Field(mr, "target_branch") ]
  }

  function DescriptionLines(mr: MrInfo): seq<string>
  {
    if HasDescription(mr) then [DescriptionLabel + mr["description"]] else []
  }

  /** The instruction body up to the tool line (review dimensions, report
      layout, scoring, action items), reduced to its section headings. */
  const BodyHead: seq<string> :=
    [ "",
      "**审查要求**",
      "## 📋 审查维度",
      "## 📝 报告输出格式要求",
      "```markdown",
      "# 📊 代码审查报告",
      "## 📋 审查概述",
      "## 🎯 关键发现",
      "## 🔍 详细分析",
      "## 📈 评分详情",
      "## 🚀 行动建议",
      "## 📚 学习资源",
      "## ✅ 审查结论",
      "---",
      "*审查完成时间：[当前时间]*" ]

  /** The line naming the reviewing tool inside the report layout. */
  function ToolLine(tool: string): string
  {
    "*审查工具：" + tool + " AI*"
  }

  /** A numbered note: its digit, a full stop and a space before the text. */
  function Numbered(digit: char, text: string): string
  {
    [digit, '.', ' '] + text
  }

  /** The instruction body after the tool line: the closing fence and the
      six numbered notes, verbatim. */
  const BodyTail: seq<string> :=
    [ "```",
      "",
      "## ⚠️ 重要说明",
      "",
      Numbered('1', "**必须包含具体文件路径和行号**，如：`backend/apps/models.py:45`"),
      Numbered('2', "**每个问题都要提供具体的代码示例**，展示修复前后的对比"),
      Numbered('3', "**严格按照模板格式输出**，确保报告的完整性和可读性"),
      Numbered('4', "**评分要客观公正**，基于实际代码质量进行评估"),
      Numbered('5', "**建议要具体可行**，避免模糊的描述"),
      Numbered('6', "**风险等级标记**：🔴严重（必须修复）、🟠高危（建议尽快修复）、🟡中危（可稍后修复）、🟢低危（优化建议）") ]

  /** The lines shared by both review templates: the header, the optional
      description, the body with the tool line, and the closing notes last. */
  function TemplateLines(mr: MrInfo, tool: string): (r: seq<string>)
    ensures |r| == 7 + |BodyHead| + 1 + |BodyTail| + (if HasDescription(mr) then 1 else 0)
    ensures r[..7] == HeaderLines(mr)
    ensures r[|r| - |BodyTail| - 1] == ToolLine(tool)
    ensures r[|r| - |BodyTail|..] == BodyTail
  {
    HeaderLines(mr) + DescriptionLines(mr) + BodyHead + [ToolLine(tool)] + BodyTail
  }

  /** Number of template lines when there is no description. */
  const BaseLineCount := 7 + |BodyHead| + 1 + |BodyTail|

  /** `_build_claude_cli_prompt`: the template naming Claude as the tool.
      Read back line by line it gives the template's lines. */
  function BuildCliPrompt(mr: MrInfo): (r: string)
    ensures PyText.Split(r) == PyText.SplitAll(TemplateLines(mr, "Claude"))
  {
    PyText.SplitJoin(TemplateLines(mr, "Claude"));
    PyText.Join(TemplateLines(mr, "Claude"))
  }

  /** The fenced diff that closes the hosted-API template. */
  function DiffSection(context: string): seq<string>
  {
    ["", DiffHeading, "", "```diff", context, "```"]
  }

  function GenericPromptLines(provider: string, mr: MrInfo, context: string): seq<string>
  {
    TemplateLines(mr, provider) + DiffSection(context)
  }

  /** `_build_generic_llm_prompt`: the template naming the provider as the
      tool, followed by the diff. */
  function BuildGenericPrompt(provider: string, mr: MrInfo, context: string): (r: string)
    ensures PyText.Split(r) == PyText.SplitAll(GenericPromptLines(provider, mr, context))
  {
    PyText.SplitJoin(GenericPromptLines(provider, mr, context));
    PyText.Join(GenericPromptLines(provider, mr, context))
  }

  const DiffSeparator := "\n\n" + DiffHeading + ":\n\n"

  /** `_build_prompt`: the configured template, a heading, then the diff. */
  function BuildPrompt(template: string, context: string): (r: string)
    ensures |r| == |template| + |DiffSeparator| + |context|
    ensures r[..|template|] == template
    ensures r[|template|..|template| + |DiffSeparator|] == DiffSeparator
    ensures r[|r| - |context|..] == context
  {
    template + DiffSeparator + context
  }

  predicate StartsWith(s: string, prefix: string)
  {
    |prefix| <= |s| && s[..|prefix|] == prefix
  }

  /** Some line of `lines` begins with the description label. */
  predicate HasDescriptionLine(lines: seq<string>)
  {
    exists i :: 0 <= i < |lines| && StartsWith(lines[i], DescriptionLabel)
  }

  /** Each header field renders its value, or `未知` when the key is missing;
      line 7 is the description line exactly when the description is truthy
      and the blank line opening the body otherwise; the template has one
      line more when a description is present. */
  lemma TemplateMetadata(mr: MrInfo, tool: string)
    ensures var lines := TemplateLines(mr, tool);
      && |lines| == BaseLineCount + (if HasDescription(mr) then 1 else 0)
      && lines[3] == "- 标题: " + (if "title" in mr then mr["title"] else Unknown)
      && lines[4] == "- 作者: " + (if "author" in mr then mr["author"] else Unknown)
      && lines[5] == "- 源分支: " + (if "source_branch" in mr then mr["source_branch"] else Unknown)
      && lines[6] == "- 目标分支: " + (if "target_branch" in mr then mr["target_branch"] else Unknown)
      && (HasDescription(mr) ==> lines[7] == DescriptionLabel + mr["description"])
      && (!HasDescription(mr) ==> lines[7] == "")
  {
  }

  /** The description line appears in a template if and only if the
      description is truthy: no other template line starts with its label. */
  lemma DescriptionLineIffTruthy(mr: MrInfo, tool: string)
    ensures HasDescriptionLine(TemplateLines(mr, tool)) <==> HasDescription(mr)
  {
    var lines := TemplateLines(mr, tool);
    if HasDescription(mr) {
      assert StartsWith(lines[7], DescriptionLabel);
    } else {
      TemplateWithoutDescription(mr, tool);
      forall i | 0 <= i < |lines|
        ensures !StartsWith(lines[i], DescriptionLabel)
      {
        NotDescriptionLine(mr, tool, i);
      }
    }
  }

  /** No line of the header followed by the body starts with the description
      label. */
  lemma NotDescriptionLine(mr: MrInfo, tool: string, i: nat)
    requires i < 7 + |BodyHead| + 1 + |BodyTail|
    ensures !StartsWith((HeaderLines(mr) + (BodyHead + [ToolLine(tool)] + BodyTail))[i], DescriptionLabel)
  {
    var header := HeaderLines(mr);
    var body := BodyHead + [ToolLine(tool)] + BodyTail;
    assert |header| == 7;
    if i < 7 {
      assert (header + body)[i] == header[i];
      HeaderIsNotDescription(mr, i);
    } else {
      assert (header + body)[i] == body[i - 7];
      BodyIsNotDescription(tool, i - 7);
    }
  }

  /** Without a description the template is the header followed by the body. */
  lemma TemplateWithoutDescription(mr: MrInfo, tool: string)
    requires !HasDescription(mr)
    ensures TemplateLines(mr, tool) == HeaderLines(mr) + (BodyHead + [ToolLine(tool)] + BodyTail)
  {
    DropEmpty(HeaderLines(mr), DescriptionLines(mr), BodyHead, [ToolLine(tool)], BodyTail);
  }

  /** An empty second part drops out of a concatenation of five parts. */
  lemma DropEmpty<T>(h: seq<T>, d: seq<T>, a: seq<T>, b: seq<T>, c: seq<T>)
    requires d == []
    ensures h + d + a + b + c == h + (a + b + c)
  {
  }

  /** No header line starts with the description label. */
  lemma HeaderIsNotDescription(mr: MrInfo, k: nat)
    requires k < 7
    ensures !StartsWith(HeaderLines(mr)[k], DescriptionLabel)
  {
    var line := HeaderLines(mr)[k];
    if k == 1 {
      assert line == [];
    } else if k == 0 || k == 2 {
      assert line[0] != '-';
    } else {
      assert line[2] != DescriptionLabel[2];
    }
  }

  /** No line of the body, the tool line included, starts with the
      description label. */
  lemma BodyIsNotDescription(tool: string, k: nat)
    requires k < |BodyHead| + 1 + |BodyTail|
    ensures !StartsWith((BodyHead + [ToolLine(tool)] + BodyTail)[k], DescriptionLabel)
  {
    var body := BodyHead + [ToolLine(tool)] + BodyTail;
    if k < |BodyHead| {
      assert body[k] == BodyHead[k];
      BodyHeadIsNotDescription(k);
    } else if k == |BodyHead| {
      assert body[k] == ToolLine(tool);
      assert ToolLine(tool)[0] == '*';
    } else {
      assert body[k] == BodyTail[k - |BodyHead| - 1];
      BodyTailIsNotDescription(k - |BodyHead| - 1);
    }
  }

  /** A line shorter than the description label, or one whose first
      character differs from the label's, does not start with it. */
  predicate ClearOfDescription(line: string)
  {
    |line| < |DescriptionLabel| || line[0] != DescriptionLabel[0]
  }

  /** No line of the fixed body starts with the description label. */
  lemma BodyHeadIsNotDescription(k: nat)
    requires k < |BodyHead|
    ensures !StartsWith(BodyHead[k], DescriptionLabel)
  {
    assert forall j :: 0 <= j < |BodyHead| ==> ClearOfDescription(BodyHead[j]);
    assert ClearOfDescription(BodyHead[k]);
  }

  /** No line of the fixed body starts with the description label. */
  lemma BodyTailIsNotDescription(k: nat)
    requires k < |BodyTail|
    ensures !StartsWith(BodyTail[k], DescriptionLabel)
  {
    assert forall j :: 0 <= j < |BodyTail| ==> ClearOfDescription(BodyTail[j]);
    assert ClearOfDescription(BodyTail[k]);
  }

  /** The text the fenced diff adds after the shared template. */
  function DiffBlock(context: string): string
  {
    "\n\n" + (DiffHeading + ("\n\n" + ("```diff\n" + (context + "\n```"))))
  }

  /** The closing lines of the hosted-API template, joined, are the diff
      block less its first newline. */
  lemma DiffSectionJoined(context: string)
    ensures "\n" + PyText.Join(DiffSection(context)) == DiffBlock(context)
  {
    var fenced := "```diff\n" + (context + "\n```");
    calc {
      "\n" + PyText.Join(DiffSection(context));
    == { JoinSix("", DiffHeading, "", "```diff", context, "```"); }
      "\n" + ("" + "\n" + (DiffHeading + "\n" + ("" + "\n" + ("```diff" + "\n" + (context + "\n" + "```")))));
    == { Regroup(context, "\n", "```");
         Regroup("```diff", "\n", context + "\n```"); }
      "\n" + ("" + "\n" + (DiffHeading + "\n" + ("" + "\n" + fenced)));
    == { Regroup("", "\n", fenced);
         Regroup(DiffHeading, "\n", "\n" + fenced);
         Regroup("\n", "\n", fenced); }
      "\n" + ("" + "\n" + (DiffHeading + ("\n\n" + fenced)));
    == { Regroup("", "\n", DiffHeading + ("\n\n" + fenced));
         Regroup("\n", "\n", DiffHeading + ("\n\n" + fenced)); }
      DiffBlock(context);
    }
  }

  /** Concatenation regroups to the right. */
  lemma Regroup(x: string, y: string, z: string)
    ensures x + y + z == x + (y + z)
  {
  }

  /** Joining six lines puts a newline between each neighbouring pair. */
  lemma JoinSix(a: string, b: string, c: string, d: string, e: string, f: string)
    ensures PyText.Join([a, b, c, d, e, f])
            == a + "\n" + (b + "\n" + (c + "\n" + (d + "\n" + (e + "\n" + f))))
  {
    assert PyText.Join([f]) == f;
    assert PyText.Join([e, f]) == e + "\n" + f by { assert [e, f][1..] == [f]; }
    assert PyText.Join([d, e, f]) == d + "\n" + PyText.Join([e, f]) by { assert [d, e, f][1..] == [e, f]; }
    assert PyText.Join([c, d, e, f]) == c + "\n" + PyText.Join([d, e, f]) by { assert [c, d, e, f][1..] == [d, e, f]; }
    assert PyText.Join([b, c, d, e, f]) == b + "\n" + PyText.Join([c, d, e, f]) by { assert [b, c, d, e, f][1..] == [c, d, e, f]; }
    assert [a, b, c, d, e, f][1..] == [b, c, d, e, f];
  }

  /** Any non-empty list of lines followed by the closing lines, joined. */
  lemma JoinWithDiffSection(lines: seq<string>, context: string)
    requires |lines| >= 1
    ensures PyText.Join(lines + DiffSection(context)) == PyText.Join(lines) + DiffBlock(context)
  {
    DiffSectionJoined(context);
    JoinThenSection(lines, DiffSection(context), DiffBlock(context));
  }

  /** Lines followed by a section whose join, after a newline, is `block`. */
  lemma JoinThenSection(lines: seq<string>, section: seq<string>, block: string)
    requires |lines| >= 1 && |section| >= 1
    requires "\n" + PyText.Join(section) == block
    ensures PyText.Join(lines + section) == PyText.Join(lines) + block
  {
    PyText.JoinAppend(lines, section);
    Regroup(PyText.Join(lines), "\n", PyText.Join(section));
  }

  /** The hosted-API prompt is the shared template naming the provider as the
      tool, followed by the heading and the fenced diff. */
  lemma GenericPromptExtendsTemplate(provider: string, mr: MrInfo, context: string)
    ensures BuildGenericPrompt(provider, mr, context) == PyText.Join(TemplateLines(mr, provider)) + DiffBlock(context)
    ensures ToolLine(provider) in GenericPromptLines(provider, mr, context)
  {
    var t := TemplateLines(mr, provider);
    JoinWithDiffSection(t, context);
    assert GenericPromptLines(provider, mr, context)[|t| - |BodyTail| - 1] == ToolLine(provider);
  }

  /** With the provider spelled `Claude`, the hosted-API prompt is the
      command-line prompt followed by the fenced diff. */
  lemma GenericPromptForClaudeExtendsCliPrompt(mr: MrInfo, context: string)
    ensures BuildGenericPrompt("Claude", mr, context) == BuildCliPrompt(mr) + DiffBlock(context)
  {
    GenericPromptExtendsTemplate("Claude", mr, context);
  }

  /** Read back line by line, the hosted-API prompt ends with the opening
      fence, the lines of the diff, and the closing fence. */
  lemma GenericPromptEndsWithDiff(provider: string, mr: MrInfo, context: string)
    ensures var pieces := PyText.Split(BuildGenericPrompt(provider, mr, context));
            var tail := ["```diff"] + PyText.Split(context) + ["```"];
            |tail| <= |pieces| && pieces[|pieces| - |tail|..] == tail
  {
    var lines := GenericPromptLines(provider, mr, context);
    var head := TemplateLines(mr, provider) + ["", DiffHeading, ""];
    var last := ["```diff", context, "```"];
    assert lines == head + last;
    PyText.SplitJoin(lines);
    PyText.SplitAllAppend(head, last);
    FencedPieces(context);
    var tail := ["```diff"] + PyText.Split(context) + ["```"];
    var pieces := PyText.SplitAll(head) + tail;
    assert pieces[|pieces| - |tail|..] == tail;
  }

  /** The pieces of the fenced diff lines: the fences and the diff's own lines. */
  lemma FencedPieces(context: string)
    ensures PyText.SplitAll(["```diff", context, "```"]) == ["```diff"] + PyText.Split(context) + ["```"]
  {
    assert ["```diff", context, "```"] == ["```diff"] + [context] + ["```"];
    PyText.SplitAllAppend(["```diff"] + [context], ["```"]);
    PyText.SplitAllAppend(["```diff"], [context]);
    assert PyText.SplitAll(["```diff"]) == ["```diff"];
    assert PyText.SplitAll(["```"]) == ["```"];
    assert PyText.SplitAll([context]) == PyText.Split(context);
  }
}

=== FILE: pytext.dfy ===
/** The few Python string operations the service relies on: `str.lower()`
    (for provider matching), `str.strip()` (for git output) and
    `'\n'.join(...)` (for prompt assembly). Its inverse `str.split('\n')`,
    which the service never calls, is here only to read assembled prompts
    back line by line in the lemmas. */
module PyText {

  predicate IsAsciiUpper(c: char)
  {
    'A' <= c <= 'Z'
  }

  /** Lower-cases one character; only ASCII letters are mapped. */
  function LowerChar(c: char): (r: char)
    ensures !IsAsciiUpper(r)
    ensures !IsAsciiUpper(c) ==> r == c
    ensures IsAsciiUpper(c) ==> r as int == c as int + 32
  {
    if IsAsciiUpper(c) then (c as int + 32) as char else c
  }

  /** `s.lower()` restricted to ASCII letters. */
  function Lower(s: string): (r: string)
    ensures |r| == |s|
    ensures forall i :: 0 <= i < |s| ==> r[i] == LowerChar(s[i])
  {
    if s == [] then [] else [LowerChar(s[0])] + Lower(s[1..])
  }

  /** The characters `str.isspace()` accepts, hence those `str.strip()` removes. */
  predicate IsSpace(c: char)
  {
    var n := c as int;
    (0x09 <= n <= 0x0D) || (0x1C <= n <= 0x20) || n == 0x85 || n == 0xA0
    || n == 0x1680 || (0x2000 <= n <= 0x200A) || n == 0x2028 || n == 0x2029
    || n == 0x202F || n == 0x205F || n == 0x3000
  }

  /** Position of the first non-space character of `s` at or after `i`, or
      `|s|` when there is none: everything skipped is white space. */
  function SkipSpace(s: string, i: nat): (j: nat)
    requires i <= |s|
    ensures i <= j <= |s|
    ensures forall k :: i <= k < j ==> IsSpace(s[k])
    ensures j == |s| || !IsSpace(s[j])
    decreases |s| - i
  {
    if i < |s| && IsSpace(s[i]) then SkipSpace(s, i + 1) else i
  }

  /** Scanning back from `j` towards `lo`, the position just past the last
      non-space character, or `lo` when there is none: everything skipped is
      white space. */
  function SkipSpaceBack(s: string, lo: nat, j: nat): (e: nat)
    requires lo <= j <= |s|
    ensures lo <= e <= j
    ensures forall k :: e <= k < j ==> IsSpace(s[k])
    ensures e == lo || !IsSpace(s[e - 1])
    decreases j
  {
    if lo < j && IsSpace(s[j - 1]) then SkipSpaceBack(s, lo, j - 1) else j
  }

  /** `r` is the slice of `s` starting at `i`, with only white space before
      and after it. */
  predicate SliceAmidSpace(s: string, i: int, r: string)
  {
    && 0 <= i <= |s| - |r| && r == s[i..i + |r|]
    && (forall k :: 0 <= k < i ==> IsSpace(s[k]))
    && (forall k :: i + |r| <= k < |s| ==> IsSpace(s[k]))
  }

  /** `s.strip()`: a slice of `s` with only white space before and after it
      and none at either of its own ends; a string that has none at its ends
      already is returned unchanged. */
  function Strip(s: string): (r: string)
    ensures exists i :: SliceAmidSpace(s, i, r)
    ensures r == [] || (!IsSpace(r[0]) && !IsSpace(r[|r| - 1]))
    ensures (s == [] || (!IsSpace(s[0]) && !IsSpace(s[|s| - 1]))) ==> r == s
  {
    var i := SkipSpace(s, 0);
    var e := SkipSpaceBack(s, i, |s|);
    var r := s[i..e];
    assert r == [] || (r[0] == s[i] && r[|r| - 1] == s[e - 1]);
    assert s == [] || (!IsSpace(s[0]) && !IsSpace(s[|s| - 1])) ==> i == 0 && e == |s|;
    assert SliceAmidSpace(s, i, r);
    r
  }

  /** `'\n'.join(lines)`. */
  function Join(lines: seq<string>): string
  {
    if |lines| == 0 then ""
    else if |lines| == 1 then lines[0]
    else lines[0] + "\n" + Join(lines[1..])
  }

  /** Position of the first `c` in `s`. */
  function FirstIndex(s: string, c: char): (i: nat)
    requires c in s
    ensures i < |s| && s[i] == c
    ensures c !in s[..i]
  {
    if s[0] == c then 0
    else
      assert c in s[1..] by {
        var k :| 0 <= k < |s| && s[k] == c;
        assert s[1..][k - 1] == c;
      }
      var k := FirstIndex(s[1..], c);
      assert s[..k + 1] == [s[0]] + s[1..][..k];
      k + 1
  }

  /** `s.split('\n')`: always at least one piece, none holding a newline. */
  function Split(s: string): (r: seq<string>)
    ensures |r| >= 1
    ensures forall k :: 0 <= k < |r| ==> '\n' !in r[k]
    decreases |s|
  {
    if '\n' !in s then [s]
    else
      var i := FirstIndex(s, '\n');
      [s[..i]] + Split(s[i + 1..])
  }

  /** The pieces of every line, in order: what splitting the joined lines
      yields (see `SplitJoin`). */
  function SplitAll(lines: seq<string>): seq<string>
  {
    if lines == [] then [] else Split(lines[0]) + SplitAll(lines[1..])
  }

  lemma {:induction false} SplitAllAppend(xs: seq<string>, ys: seq<string>)
    ensures SplitAll(xs + ys) == SplitAll(xs) + SplitAll(ys)
    decreases |xs|
  {
    if xs == [] {
      assert xs + ys == ys;
    } else {
      assert (xs + ys)[1..] == xs[1..] + ys;
      SplitAllAppend(xs[1..], ys);
    }
  }

  /** Joining never loses text: splitting and re-joining gives `s` back. */
  lemma {:induction false} JoinSplit(s: string)
    ensures Join(Split(s)) == s
    decreases |s|
  {
    if '\n' in s {
      var i := FirstIndex(s, '\n');
      var rest := Split(s[i + 1..]);
      calc {
        Join(Split(s));
      == { SplitUnfold(s, i); }
        Join([s[..i]] + rest);
      == { assert ([s[..i]] + rest)[1..] == rest; }
        s[..i] + "\n" + Join(rest);
      == { JoinSplit(s[i + 1..]); }
        s[..i] + "\n" + s[i + 1..];
      == { assert s[..i] + [s[i]] + s[i + 1..] == s; }
        s;
      }
    }
  }

  /** The first occurrence is the only one with no earlier occurrence. */
  lemma FirstIndexUnique(s: string, c: char, i: nat)
    requires i < |s| && s[i] == c && c !in s[..i]
    ensures FirstIndex(s, c) == i
  {
  }

  /** Splitting at a newline separator splits both sides independently. */
  lemma {:induction false} SplitAtSeparator(a: string, b: string)
    ensures Split(a + "\n" + b) == Split(a) + Split(b)
    decreases |a|
  {
    if '\n' !in a {
      SplitAtFirstSeparator(a, b);
    } else {
      var i := FirstIndex(a, '\n');
      var tail := a[i + 1..];
      calc {
        Split(a + "\n" + b);
      == { SplitPastFirstLine(a, b, i); }
        [a[..i]] + Split(tail + "\n" + b);
      == { SplitAtSeparator(tail, b); }
        [a[..i]] + (Split(tail) + Split(b));
      ==
        ([a[..i]] + Split(tail)) + Split(b);
      == { SplitUnfold(a, i); }
        Split(a) + Split(b);
      }
    }
  }

  /** A newline after a line without one is the first separator. */
  lemma SplitAtFirstSeparator(a: string, b: string)
    requires '\n' !in a
    ensures Split(a + "\n" + b) == [a] + Split(b)
  {
    var s := a + "\n" + b;
    assert s[|a|] == '\n' && s[..|a|] == a && s[|a| + 1..] == b;
    SplitUnfold(s, |a|);
  }

  /** The first newline of `a` is also the first one of `a + "\n" + b`. */
  lemma SplitPastFirstLine(a: string, b: string, i: nat)
    requires i < |a| && a[i] == '\n' && '\n' !in a[..i]
    ensures Split(a + "\n" + b) == [a[..i]] + Split(a[i + 1..] + "\n" + b)
  {
    var s := a + "\n" + b;
    assert s[i] == '\n' && s[..i] == a[..i];
    assert s[i + 1..] == a[i + 1..] + "\n" + b;
    SplitUnfold(s, i);
  }

  /** Splitting at the first newline `i` cuts off the piece before it. */
  lemma SplitUnfold(s: string, i: nat)
    requires i < |s| && s[i] == '\n' && '\n' !in s[..i]
    ensures Split(s) == [s[..i]] + Split(s[i + 1..])
  {
    assert '\n' in s;
    FirstIndexUnique(s, '\n', i);
  }

  /** Splitting the joined lines yields the pieces of every line in order; in
      particular lines without newlines are recovered exactly. */
  lemma {:induction false} SplitJoin(lines: seq<string>)
    requires |lines| >= 1
    ensures Split(Join(lines)) == SplitAll(lines)
    ensures (forall k :: 0 <= k < |lines| ==> '\n' !in lines[k]) ==> Split(Join(lines)) == lines
    decreases |lines|
  {
    if |lines| == 1 {
      assert SplitAll(lines) == Split(lines[0]) + SplitAll([]);
    } else {
      SplitJoin(lines[1..]);
      SplitAtSeparator(lines[0], Join(lines[1..]));
    }
    if forall k :: 0 <= k < |lines| ==> '\n' !in lines[k] {
      SplitAllOfPlainLines(lines);
    }
  }

  lemma {:induction false} SplitAllOfPlainLines(lines: seq<string>)
    requires forall k :: 0 <= k < |lines| ==> '\n' !in lines[k]
    ensures SplitAll(lines) == lines
    decreases |lines|
  {
    if lines != [] {
      SplitAllOfPlainLines(lines[1..]);
      assert lines == [lines[0]] + lines[1..];
    }
  }

  /** Joining two non-empty groups of lines puts one newline between them. */
  lemma {:induction false} JoinAppend(xs: seq<string>, ys: seq<string>)
    requires |xs| >= 1 && |ys| >= 1
    ensures Join(xs + ys) == Join(xs) + "\n" + Join(ys)
    decreases |xs|
  {
    if |xs| == 1 {
      assert (xs + ys)[1..] == ys;
    } else {
      assert (xs + ys)[1..] == xs[1..] + ys;
      JoinAppend(xs[1..], ys);
    }
  }
}
